=== FILE: README.md ===
# Account and role administration: a Dafny model

This project models the core of a small administrative application: a
Laravel JSON API that registers and logs in users and manages `users` and
`roles`, and its Vue front end's session store and navigation guard.

The server is modelled as a state machine over one immutable value `Db`
(module `Accounts`). It holds the `roles` and `users` tables keyed by id,
the issued personal access tokens mapped to their owner's id, and the next
value of each auto-increment counter. Every controller action is a pure
function from a `Db` and a request body (`Validation.Input`, one optional
field per JSON key) to an `Api.Outcome`: a status code, a body, and the
`Db` afterwards.

Validation is modelled as the set of rules the input breaks. A request
passes when that set is empty. As in Laravel's validator, an absent or
blank value breaks only `required`. The other rules of a present value are
all checked, except that `unique` and `exists` are skipped once an earlier
rule on the same field has failed. So an e-mail that is malformed or too
long is never also reported as taken. An absent key and a `null` value are
treated alike, except for `password`: the update endpoint tests whether
that key is present (`Validation.PasswordSent`), so `"password": null`
there breaks `required`. Each rule set is also stated field by field
as a predicate (`NewAccountAcceptable`, `UpdateAcceptable`,
`RoleAcceptable`), and every creating or updating action is proved to
succeed exactly when that predicate holds.

The front end is modelled in two modules. `AuthStore` is a state machine
over the in-memory user and token plus the token persisted in browser
storage. `Router` covers the route table and the `beforeEach` decision.
`Scenarios` connects the two sides: register and then log in, register and
then `GET /user`, and the client adopting the server's answer.

Collaborators the code calls but does not define are parameters, in
`Services.Services`:
- the password hash `hash`;
- its verifier `check`;
- the validator's e-mail format rule `isEmail`.

The one assumption about hashing is `Sound`: every password checks against
its own hash. `Disguises` (no password hashes to itself) is used only as an
explicit hypothesis of `AuthController.RegisterStoresNoPlaintext`. A
token's random part is a `secret` parameter. Its id comes from the
`nextTokenId` counter, which makes every issued token fresh.

Decisions where the code leaves a choice:
- `first()` lookups pick the lowest matching id. These are the login
  lookup by e-mail and the seeder's lookup of the Admin role.
- Listings are in ascending id order.
- A route parameter that is not a decimal number names no row, so the
  answer is 404.
- Every request asks for JSON. The front end's HTTP client sends
  `Accept: application/json` and `X-Requested-With: XMLHttpRequest` on every
  call (`redcore-yabutech/src/utils/axios.ts:5-10`). So Laravel answers a
  failed validation with a 422 JSON body and a failed `auth:sanctum` check
  with a 401, rather than with a redirect.
- Requests pass through routing first (404, or 405 for a known path under
  another method), then the `auth:sanctum` gate (401), then route model
  binding (404), then the controller.

Two behaviours of the code worth noting:
- The front end does not attach the token to its requests, since the HTTP
  client sets no `Authorization` header. The model therefore has no token
  attachment.
- Deleting a role is unguarded. `RoleController.DestroyCanOrphanUsers`
  exhibits a consistent store in which deleting a role leaves a user whose
  role no longer exists.

## Model

| member | source | states |
|---|---|---|
| `Accounts.LowestWhere` | app/Http/Controllers/API/AuthController.php:53 | a `where(...)->first()` lookup returns a matching row with the lowest matching id, and returns nothing exactly when no row matches |
| `Accounts.UserWithEmail` | app/Http/Controllers/API/AuthController.php:53 | the user found by e-mail has that e-mail and the lowest such id; none is found exactly when no user has it |
| `Accounts.RoleNamed` | database/seeders/DatabaseSeeder.php:18 | the role found by name has that name and the lowest such id; none is found exactly when no role has it |
| `Accounts.AllUsers` | app/Http/Controllers/API/UserController.php:15 | lists each user exactly once, by ascending id, each joined with the role its role_id names |
| `Accounts.AllRoles` | app/Http/Controllers/API/RoleController.php:14 | lists each role exactly once, by ascending id, with its name and description |
| `Validation.EmailRule` | app/Http/Controllers/API/AuthController.php:19 | a present e-mail is reported malformed exactly when the format rule fails and too long exactly when it exceeds 255 characters; it is reported as taken exactly when it passes both and another row holds it; no rule is broken exactly when it is filled, well-formed, short enough and unused |
| `Validation.CreateUserRules` | app/Http/Controllers/API/AuthController.php:17-22 | no rule is broken exactly when full_name is filled and at most 255 chars; e-mail is filled, well-formed, at most 255 chars and unused; password is filled, at least 8 chars and confirmed; role_id names a role |
| `Validation.UpdateUserRules` | app/Http/Controllers/API/UserController.php:40-45 | as for creation, except that only other users' e-mails count as taken and the password rules apply only when a password key is sent |
| `Validation.LoginRules` | app/Http/Controllers/API/AuthController.php:48-51 | a login request breaks no rule exactly when the e-mail is filled and well-formed and the password is filled; a missing field is reported as required |
| `Validation.RoleRules` | app/Http/Controllers/API/RoleController.php:23-26 | no rule is broken exactly when name and description are filled and no other role has the name |
| `RoleController.Index` | app/Http/Controllers/API/RoleController.php:11-18 | 200 with every role exactly once, or 500 with "Failed to fetch roles" when the store fails |
| `RoleController.Store` | app/Http/Controllers/API/RoleController.php:21-30 | 201 exactly when the role is acceptable, adding one role under a fresh id; otherwise 422 with the broken rules and nothing changed; users and tokens untouched; invariants kept |
| `RoleController.Show` | app/Http/Controllers/API/RoleController.php:32-35 | 404 exactly when the id names no role, else 200 with that role |
| `RoleController.Update` | app/Http/Controllers/API/RoleController.php:37-46 | 404 for an unknown id; 200 exactly when the input is acceptable with the role's own name excluded from the clash check, replacing only that role's name and description; otherwise nothing changes |
| `RoleController.Destroy` | app/Http/Controllers/API/RoleController.php:48-52 | 204 removing exactly the given role, other roles, users and tokens unchanged; 404 for an unknown id |
| `RoleController.StoreThenShow` | app/Http/Controllers/API/RoleController.php:21-35 | a created role reads back through show with the given name and description under the reported id |
| `RoleController.UpdateThenShow` | app/Http/Controllers/API/RoleController.php:32-46 | after an update, show returns the new name and description, and every other role reads back as before |
| `RoleController.DestroyThenShow` | app/Http/Controllers/API/RoleController.php:32-52 | after a delete, show answers 404 for that role, and every other role reads back as before |
| `RoleController.UpdateKeepsOwnName` | app/Http/Controllers/API/RoleController.php:40 | re-saving a role under its current name with a description succeeds |
| `RoleController.DestroyCanOrphanUsers` | app/Http/Controllers/API/RoleController.php:48-51 | a store where every user has a role, and deleting a role in it leaves a user without one |
| `UserController.Index` | app/Http/Controllers/API/UserController.php:13-16 | 200 listing every user exactly once, in ascending id order, each entry the user's full record (id, full name, e-mail, role_id) joined with the role its role_id names |
| `UserController.Store` | app/Http/Controllers/API/UserController.php:18-31 | 201 exactly when registration's rules pass, adding one user under a fresh id whose stored password is the hash of the given one, with its role loaded; otherwise 422 and nothing changed |
| `UserController.Show` | app/Http/Controllers/API/UserController.php:33-36 | 404 exactly when the id names no user, else 200 with that user's full record (full name, e-mail, role_id) and its role |
| `UserController.Update` | app/Http/Controllers/API/UserController.php:38-53 | 404 for an unknown id; 200 exactly when the update rules pass, replacing only that user; the hash is kept without a password key and re-hashed with one; a password key sent as null answers 422 with the password required; roles and tokens unchanged |
| `UserController.StoreThenShow` | app/Http/Controllers/API/UserController.php:18-36 | a created user reads back through show exactly as the 201 reported it, with the given name, e-mail and role_id |
| `UserController.UpdateThenShow` | app/Http/Controllers/API/UserController.php:33-53 | after an update, show returns exactly what the 200 reported, with the new name, e-mail and role_id, and every other user reads back as before |
| `UserController.DestroyThenShow` | app/Http/Controllers/API/UserController.php:33-59 | after a delete, show answers 404 for that user, and every other user reads back as before |
| `UserController.Destroy` | app/Http/Controllers/API/UserController.php:55-59 | 204 removing exactly the given user, every other user, roles and tokens unchanged; 404 for an unknown id |
| `UserController.UpdateKeepsOwnEmail` | app/Http/Controllers/API/UserController.php:42 | a user's own current e-mail is never reported as taken on update |
| `AuthController.Register` | app/Http/Controllers/API/AuthController.php:14-43 | 201 exactly when the registration is acceptable: one user added with the hashed password, roles unchanged, a fresh token bound to the new id, its text and the user with role returned; otherwise 400 with the broken rules and nothing changed |
| `AuthController.Login` | app/Http/Controllers/API/AuthController.php:45-73 | 200 exactly when the request is well-formed, a user has the e-mail and the password checks against its hash, issuing a token bound to that user with users and roles unchanged; every failure is 401 and changes nothing |
| `AuthController.LoginFailuresAlike` | app/Http/Controllers/API/AuthController.php:53-59 | an unknown e-mail and a wrong password give the identical 401 "The provided credentials are incorrect." and leave the store as it was |
| `AuthController.RegisterStoresNoPlaintext` | app/Http/Controllers/API/AuthController.php:27 | assuming no password hashes to itself, the stored credential differs from the plaintext |
| `Tokens.PlainTextRoundTrip` | app/Http/Controllers/API/AuthController.php:31 | the bearer text of an issued token reads back as exactly that token |
| `ApiRoutes.FirstMatch` | routes/api.php:10-20 | the route chosen is the first registered one whose methods include the request's and whose path matches; none is chosen exactly when no route matches |
| `ApiRoutes.Resolve` | routes/api.php:10-20 | the resolved route accepts the method and matches the path; nothing resolves exactly when no registered route does |
| `ApiRoutes.EveryRouteReachable` | routes/api.php:10-20 | no registered route is shadowed: each one is reached by each of its methods on its own path, for any non-empty id segment |
| `ApiRoutes.CurrentUserGuarded` | routes/api.php:15-18 | the only route to GET /user sits inside the auth:sanctum group |
| `ApiRoutes.Perform` | routes/api.php:10-20 | the read actions (role and user listings and shows, GET /user) change nothing; an id segment that is not a decimal number answers 404 and changes nothing; every action keeps the store's invariants, and every action except role deletion keeps each user's role existing |
| `ApiRoutes.BearerNamesOneToken` | app/Http/Controllers/API/AuthController.php:31 | the text of an issued token names that stored token and no other, and authenticates its owner |
| `ApiRoutes.RequiresAuthExactly` | routes/api.php:9-21 | an endpoint demands a token exactly when it exists and is not POST /login, POST /register or GET /roles |
| `ApiRoutes.ResourcesGuarded` | routes/api.php:15-20 | /user, every roles route except the listing, and every users route demand a token |
| `ApiRoutes.Authenticate` | routes/api.php:15 | a caller is authenticated exactly when the bearer text names a stored token whose owner still exists, and the caller is that token's owner |
| `ApiRoutes.TrailingSlashIgnored` | routes/api.php:10-20 | a trailing slash on the request path never changes the answer, as Laravel strips it before matching |
| `ApiRoutes.Dispatch` | routes/api.php:9-21 | routes on the path without its trailing slashes; an unknown route answers 404/405 and a protected route without a valid token answers 401, both changing nothing; every request keeps the store's invariants, and only role deletion can leave a user without a role |
| `ApiRoutes.PublicIgnoresBearer` | routes/api.php:10-12 | the public endpoints answer the same whatever token is sent |
| `ApiRoutes.CurrentUserIsTokenOwner` | routes/api.php:16-18 | GET /user answers 200 with the token owner's record and role and changes nothing |
| `Seeders.RunRoleSeeder` | database/seeders/RoleSeeder.php:10-21 | adds the roles Admin ("Administrator role") and User ("Regular user role") under the next two ids and advances the role counter by two; with fresh ids it completes exactly when neither name is taken, since the store's unique constraint makes `Role::create` throw otherwise; an existing Admin aborts it with nothing written; users, tokens and every invariant are kept |
| `Seeders.RunDatabaseSeeder` | database/seeders/DatabaseSeeder.php:12-27 | with fresh ids it completes exactly when neither role name and not test@example.com is taken; on completion it seeds the roles, then adds "Test Admin", test@example.com, with the hash of "password", under the next user id, with the new Admin role, which is the lowest-id role named Admin; an aborted run keeps every user; tokens and every invariant are kept |
| `Seeders.ReseedAborts` | database/seeders/RoleSeeder.php:12-15 | seeding a seeded store aborts at the first insert and leaves it as it was |
| `Seeders.SeededState` | database/seeders/DatabaseSeeder.php:15-26 | a fresh seed holds exactly the two roles, the one admin with role 1 and no tokens, and satisfies every invariant including that each user's role exists |
| `Seeders.SeededAdminPassword` | database/seeders/DatabaseSeeder.php:24 | the seeded admin's stored hash checks against "password" |
| `AuthStore.Init` | redcore-yabutech/src/store/auth.ts:6-9 | starts with no user and the persisted token, or '' without one |
| `AuthStore.Login` | redcore-yabutech/src/store/auth.ts:12-30 | succeeds exactly on a response carrying a token, adopting its token and user and persisting the token; otherwise the state is unchanged and the error is "Invalid credentials", the server's message, or "Login failed. Please try again." |
| `AuthStore.Register` | redcore-yabutech/src/store/auth.ts:32-50 | as login, with "Registration failed" and "Registration failed. Please try again." |
| `AuthStore.Logout` | redcore-yabutech/src/store/auth.ts:52-56 | clears the user and the in-memory token and removes the persisted one |
| `AuthStore.LogoutIdempotent` | redcore-yabutech/src/store/auth.ts:52-56 | logging out twice is logging out once |
| `Router.BeforeEach` | redcore-yabutech/src/router/index.ts:44-51 | redirects to /login exactly when the target is flagged and no token is stored, otherwise proceeds |
| `Router.Flags` | redcore-yabutech/src/router/index.ts:8-37 | /, /users and /roles are flagged; /login and /register are not |
| `Router.OnlyPresenceMatters` | redcore-yabutech/src/router/index.ts:45 | any two stored tokens, valid or not, get the same decision |
| `Router.RedirectSettles` | redcore-yabutech/src/router/index.ts:46-50 | the page a redirect leads to is always let through |
| `Router.LogoutLocksPages` | redcore-yabutech/src/store/auth.ts:52-56 | after logout every flagged page redirects to /login |
| `Scenarios.RegisterThenLogin` | app/Http/Controllers/API/AuthController.php:24-61 | after a successful registration, logging in with the same e-mail and password succeeds for the new account |
| `Scenarios.RegisterTwiceFails` | app/Http/Controllers/API/AuthController.php:19 | registering a used e-mail again answers 400 with the e-mail taken and creates nothing |
| `Scenarios.RegisterThenCurrentUser` | routes/api.php:16-18 | the token text a registration returns authenticates GET /user, which answers with the new account's e-mail |
| `Scenarios.ClientAdoptsRegistration` | redcore-yabutech/src/store/auth.ts:36-40 | the front end adopts a successful registration's token and user, persists the token, and the guard then lets it onto / |
| `Scenarios.ClientShowsBadCredentials` | redcore-yabutech/src/store/auth.ts:23-28 | a wrong login shows "The provided credentials are incorrect." and leaves the session unchanged |
| `Scenarios.UpdateWithoutPasswordKeepsLogin` | app/Http/Controllers/API/UserController.php:47-51 | after an update that sends no password key, any password that checked against the stored hash still logs the user in |

## Left out

- Password hashing internals (bcrypt): `hash` and `check` are parameters. Bcrypt salts every hash, so two hashes of one password differ; the model's `hash` is a function and cannot express this.
- The token's random part and Sanctum's storage of its SHA-256 hash: the random part is a parameter, and a token is stored as itself.
- Sanctum's lookup of bearer text without an `id|` prefix: such text authenticates nobody in the model.
- Sanctum's cookie-session path: nothing in this code starts a session.
- Sanctum's `last_used_at` bookkeeping.
- Token expiry: tokens never expire (`config/sanctum.php:29` sets no expiration), so the model has none.
- The e-mail format rule: `isEmail` is a parameter.
- The text of validation and framework error messages: only the rules broken are modelled.
- Global request middleware such as trimming and empty-to-null conversion: the model covers the validator's own blank check (PHP `trim`), not this normalisation.
- Non-string JSON values for string fields (the `string` rule).
- Database collation: every comparison of e-mails and role names compares strings exactly. This covers the `unique` rules, the login lookup `User::where('email', …)->first()` (`Accounts.UserWithEmail`) and the seeder's `Role::where('name', 'Admin')->first()` (`Accounts.RoleNamed`). A case- or accent-insensitive collation would match more rows.
- Unique-constraint races between concurrent requests.
- Store failures other than the one `RoleController.index` catches.
- Numeric coercion of ids such as `5abc`, both in route model binding and in Sanctum's lookup of a token by the id before the `|`: only decimal digits bind or name a token.
- The HTTP client's base URL, content type and `withCredentials` flag, and its response interceptor, which only logs. Its `Accept` and `X-Requested-With` headers are modelled as the JSON-only answers above.
- `async`/`await` and console logging.
- Real browser storage: the persisted token is a single optional string.
- Vue Router's case-insensitive and trailing-slash path matching: client paths match exactly.

=== FILE: accounts.dfy ===
/** The persisted state behind the API: the `roles` and `users` tables and
    the personal access tokens, each keyed by an auto-increment id. */
module Accounts {
  import opened Wrappers
  import opened Tokens
  import OrderedKeys

  datatype Role = Role(name: string, description: string)

  datatype User = User(fullName: string, email: string, passwordHash: string, roleId: int)

  /** The three tables plus the next value of each auto-increment counter.
      `tokens` maps each issued token to the id of the user it belongs to. */
  datatype Db = Db(
    roles: map<int, Role>,
    users: map<int, User>,
    tokens: map<Token, int>,
    nextRoleId: int,
    nextUserId: int,
    nextTokenId: nat)

  /** A freshly migrated database. */
  const Empty: Db := Db(map[], map[], map[], 1, 1, 1)

  /** Every stored id is below its table's counter, so the counter's value
      is an id no row has. */
  ghost predicate IdsFresh(db: Db) {
    && (forall id :: id in db.roles ==> id < db.nextRoleId)
    && (forall id :: id in db.users ==> id < db.nextUserId)
    && (forall t :: t in db.tokens ==> t.id < db.nextTokenId)
  }

  ghost predicate EmailsUnique(users: map<int, User>) {
    forall i, j :: i in users && j in users && users[i].email == users[j].email ==> i == j
  }

  ghost predicate RoleNamesUnique(roles: map<int, Role>) {
    forall i, j :: i in roles && j in roles && roles[i].name == roles[j].name ==> i == j
  }

  /** What every operation except role deletion maintains. */
  ghost predicate Consistent(db: Db) {
    IdsFresh(db) && EmailsUnique(db.users) && RoleNamesUnique(db.roles)
  }

  /** Every user's role_id names an existing role. Deleting a role does not
      maintain this. */
  ghost predicate RolesResolved(db: Db) {
    forall id :: id in db.users ==> db.users[id].roleId in db.roles
  }

  /** Inserts a role under the next auto-increment id. */
  function AddRole(db: Db, r: Role): (db': Db)
    ensures db'.roles == db.roles[db.nextRoleId := r]
    ensures db'.nextRoleId == db.nextRoleId + 1
    ensures db'.users == db.users && db'.tokens == db.tokens
    ensures db'.nextUserId == db.nextUserId && db'.nextTokenId == db.nextTokenId
    ensures IdsFresh(db) ==> db.nextRoleId !in db.roles && |db'.roles| == |db.roles| + 1 && IdsFresh(db')
  {
    db.(roles := db.roles[db.nextRoleId := r], nextRoleId := db.nextRoleId + 1)
  }

  /** Inserts a user under the next auto-increment id. */
  function AddUser(db: Db, u: User): (db': Db)
    ensures db'.users == db.users[db.nextUserId := u]
    ensures db'.nextUserId == db.nextUserId + 1
    ensures db'.roles == db.roles && db'.tokens == db.tokens
    ensures db'.nextRoleId == db.nextRoleId && db'.nextTokenId == db.nextTokenId
    ensures IdsFresh(db) ==> db.nextUserId !in db.users && |db'.users| == |db.users| + 1 && IdsFresh(db')
  {
    db.(users := db.users[db.nextUserId := u], nextUserId := db.nextUserId + 1)
  }

  /** The token the next issue will create. */
  function NextToken(db: Db, secret: string): Token {
    Token(db.nextTokenId, secret)
  }

  /** Stores a new token for `owner` (`createToken`). */
  function IssueToken(db: Db, owner: int, secret: string): (db': Db)
    ensures db'.tokens == db.tokens[NextToken(db, secret) := owner]
    ensures db'.nextTokenId == db.nextTokenId + 1
    ensures db'.roles == db.roles && db'.users == db.users
    ensures db'.nextRoleId == db.nextRoleId && db'.nextUserId == db.nextUserId
    ensures IdsFresh(db) ==> NextToken(db, secret) !in db.tokens && IdsFresh(db')
  {
    db.(tokens := db.tokens[NextToken(db, secret) := owner], nextTokenId := db.nextTokenId + 1)
  }

  /** The lowest id whose row satisfies `wanted`: what `first()` returns
      for a `where` query. */
  function LowestWhere<V>(rows: map<int, V>, wanted: V -> bool): (r: Option<int>)
    ensures r.Some? ==> r.value in rows && wanted(rows[r.value])
    ensures r.Some? ==> forall k :: k in rows && wanted(rows[k]) ==> r.value <= k
    ensures r.None? <==> forall k :: k in rows ==> !wanted(rows[k])
  {
    var ids := set k | k in rows && wanted(rows[k]);
    assert forall k :: k in rows ==> (k in ids <==> wanted(rows[k]));
    if ids == {} then None else Some(OrderedKeys.Least(ids))
  }

  /** `User::where('email', …)->first()` */
  function UserWithEmail(users: map<int, User>, email: string): (r: Option<int>)
    ensures r.Some? ==> r.value in users && users[r.value].email == email
    ensures r.Some? ==> forall k :: k in users && users[k].email == email ==> r.value <= k
    ensures r.None? <==> forall k :: k in users ==> users[k].email != email
  {
    LowestWhere(users, (u: User) => u.email == email)
  }

  /** `Role::where('name', …)->first()` */
  function RoleNamed(roles: map<int, Role>, name: string): (r: Option<int>)
    ensures r.Some? ==> r.value in roles && roles[r.value].name == name
    ensures r.Some? ==> forall k :: k in roles && roles[k].name == name ==> r.value <= k
    ensures r.None? <==> forall k :: k in roles ==> roles[k].name != name
  {
    LowestWhere(roles, (r: Role) => r.name == name)
  }

  /** A role as it is serialised in a response. */
  datatype RoleView = RoleView(id: int, name: string, description: string)

  /** A user as it is serialised with its `role` relation loaded; the
      password hash is a hidden attribute and never part of it. A role_id
      that names no role loads as `null`. */
  datatype UserView = UserView(id: int, fullName: string, email: string, roleId: int, role: Option<RoleView>)

  function ViewRole(roles: map<int, Role>, id: int): (v: Option<RoleView>)
    ensures v.Some? <==> id in roles
    ensures v.Some? ==> v.value.id == id && v.value.name == roles[id].name
                        && v.value.description == roles[id].description
  {
    if id in roles then Some(RoleView(id, roles[id].name, roles[id].description)) else None
  }

  /** `$user->load('role')`. */
  function ViewUser(db: Db, id: int): (v: UserView)
    requires id in db.users
    ensures v.id == id && v.email == db.users[id].email && v.fullName == db.users[id].fullName
    ensures v.roleId == db.users[id].roleId
    ensures v.role == ViewRole(db.roles, db.users[id].roleId)
  {
    var u := db.users[id];
    UserView(id, u.fullName, u.email, u.roleId, ViewRole(db.roles, u.roleId))
  }

  /** Views of the rows with the given ids, in the same order. */
  function ViewUsers(db: Db, ids: seq<int>): (vs: seq<UserView>)
    requires forall i :: 0 <= i < |ids| ==> ids[i] in db.users
    ensures |vs| == |ids|
    ensures forall i :: 0 <= i < |ids| ==> vs[i].id == ids[i] && vs[i] == ViewUser(db, ids[i])
    decreases |ids|
  {
    if ids == [] then [] else [ViewUser(db, ids[0])] + ViewUsers(db, ids[1..])
  }

  function ViewRoles(roles: map<int, Role>, ids: seq<int>): (vs: seq<RoleView>)
    requires forall i :: 0 <= i < |ids| ==> ids[i] in roles
    ensures |vs| == |ids|
    ensures forall i :: 0 <= i < |ids| ==> vs[i] == RoleView(ids[i], roles[ids[i]].name, roles[ids[i]].description)
    decreases |ids|
  {
    if ids == [] then []
    else [RoleView(ids[0], roles[ids[0]].name, roles[ids[0]].description)] + ViewRoles(roles, ids[1..])
  }

  /** `User::with('role')->get()`: every user with its role, by ascending id. */
  function AllUsers(db: Db): (vs: seq<UserView>)
    ensures |vs| == |db.users|
    ensures forall i :: 0 <= i < |vs| ==> vs[i].id in db.users && vs[i] == ViewUser(db, vs[i].id)
    ensures forall id :: id in db.users ==> exists i :: 0 <= i < |vs| && vs[i].id == id
    ensures forall i, j :: 0 <= i < j < |vs| ==> vs[i].id < vs[j].id
  {
    var ids := OrderedKeys.Sorted(db.users.Keys);
    IdsListed(ids, db.users.Keys);
    var vs := ViewUsers(db, ids);
    assert forall i :: 0 <= i < |vs| ==> vs[i].id in db.users && vs[i] == ViewUser(db, vs[i].id) by {
      forall i | 0 <= i < |vs|
        ensures vs[i].id in db.users && vs[i] == ViewUser(db, vs[i].id)
      {
        assert vs[i].id == ids[i] && ids[i] in db.users.Keys;
      }
    }
    vs
  }

  /** `Role::all()`: every role, by ascending id. */
  function AllRoles(roles: map<int, Role>): (vs: seq<RoleView>)
    ensures |vs| == |roles|
    ensures forall i :: 0 <= i < |vs| ==> vs[i].id in roles && vs[i].name == roles[vs[i].id].name
                                          && vs[i].description == roles[vs[i].id].description
    ensures forall id :: id in roles ==> exists i :: 0 <= i < |vs| && vs[i].id == id
    ensures forall i, j :: 0 <= i < j < |vs| ==> vs[i].id < vs[j].id
  {
    var ids := OrderedKeys.Sorted(roles.Keys);
    var vs := ViewRoles(roles, ids);
    IdsListed(ids, roles.Keys);
    vs
  }

  lemma IdsListed(ids: seq<int>, keys: set<int>)
    requires forall x :: x in keys ==> x in ids
    ensures forall x :: x in keys ==> exists i :: 0 <= i < |ids| && ids[i] == x
  {
  }
}

=== FILE: api.dfy ===
/** What a request yields: an HTTP status and a JSON body, plus the state
    of the store afterwards. */
module Api {
  import opened Wrappers
  import opened Accounts
  import opened Validation

  const Ok := 200
  const Created := 201
  const NoContent := 204
  const BadRequest := 400
  const Unauthorized := 401
  const NotFound := 404
  const MethodNotAllowed := 405
  const Unprocessable := 422
  const ServerError := 500

  datatype ApiError =
    | Invalid(violations: set<Violation>)
    | BadCredentials
    | Unauthenticated
    | Missing
    | WrongMethod
    | FetchFailed

  /** The `message` a failure carries when its text is fixed. The text of
      a validation failure is composed by the validator's translator and is
      not modelled. */
  function FixedMessage(e: ApiError): Option<string> {
    match e
    case Invalid(_) => None
    case BadCredentials => Some("The provided credentials are incorrect.")
    case Unauthenticated => Some("Unauthenticated.")
    case Missing => None
    case WrongMethod => None
    case FetchFailed => Some("Failed to fetch roles")
  }

  datatype Body =
    | AuthBody(message: string, token: string, user: UserView)
    | UserBody(user: UserView)
    | UsersBody(users: seq<UserView>)
    | RoleBody(role: RoleView)
    | RolesBody(roles: seq<RoleView>)
    | Empty
    | ErrorBody(error: ApiError)

  datatype Response = Response(status: int, body: Body)

  /** A response together with the store it leaves behind. */
  datatype Outcome = Outcome(response: Response, db: Db)

  function Failure(status: int, e: ApiError): Response {
    Response(status, ErrorBody(e))
  }
}

=== FILE: api_routes.dfy ===
/** The API's route table (`routes/api.php`, mounted under `/api`), the
    `auth:sanctum` gate in front of the protected routes, and the dispatch
    of a request to its controller action. Paths are the segments after
    `/api`. */
module ApiRoutes {
  import opened Wrappers
  import opened Accounts
  import opened Tokens
  import opened Validation
  import opened Api
  import opened Services
  import Decimal
  import RoleController
  import UserController
  import AuthController

  datatype Method = GET | HEAD | POST | PUT | PATCH | DELETE

  datatype Action =
    | Login | Register | ListRoles | CurrentUser
    | StoreRole | ShowRole | UpdateRole | DestroyRole
    | ListUsers | StoreUser | ShowUser | UpdateUser | DestroyUser

  /** A route serves `/<resource>`, or `/<resource>/{id}` when it takes a
      parameter (`{role}`, `{user}`). */
  datatype Route = Route(methods: set<Method>, resource: string, takesId: bool, action: Action, guarded: bool)

  const Reads: set<Method> := {GET, HEAD}
  const Writes: set<Method> := {PUT, PATCH}

  /** In registration order: three public routes, then the `auth:sanctum`
      group with `/user`, the roles resource without `index`, and the full
      users resource. */
  const Routes: seq<Route> := [
    Route({POST}, "login", false, Login, false),
    Route({POST}, "register", false, Register, false),
    Route(Reads, "roles", false, ListRoles, false),
    Route(Reads, "user", false, CurrentUser, true),
    Route({POST}, "roles", false, StoreRole, true),
    Route(Reads, "roles", true, ShowRole, true),
    Route(Writes, "roles", true, UpdateRole, true),
    Route({DELETE}, "roles", true, DestroyRole, true),
    Route(Reads, "users", false, ListUsers, true),
    Route({POST}, "users", false, StoreUser, true),
    Route(Reads, "users", true, ShowUser, true),
    Route(Writes, "users", true, UpdateUser, true),
    Route({DELETE}, "users", true, DestroyUser, true)
  ]

  /** A parameter matches any non-empty segment. */
  predicate Matches(route: Route, path: seq<string>) {
    && |path| == (if route.takesId then 2 else 1)
    && path[0] == route.resource
    && (route.takesId ==> path[1] != "")
  }

  /** The index of the first route, from `from` on, for the method and
      path. */
  function FirstMatch(m: Method, path: seq<string>, from: nat): (r: Option<nat>)
    requires from <= |Routes|
    ensures r.Some? ==> from <= r.value < |Routes| && m in Routes[r.value].methods
                        && Matches(Routes[r.value], path)
    ensures r.Some? ==> forall i :: from <= i < r.value ==> !(m in Routes[i].methods && Matches(Routes[i], path))
    ensures r.None? <==> forall i :: from <= i < |Routes| ==> !(m in Routes[i].methods && Matches(Routes[i], path))
    decreases |Routes| - from
  {
    if from == |Routes| then None
    else if m in Routes[from].methods && Matches(Routes[from], path) then Some(from)
    else FirstMatch(m, path, from + 1)
  }

  /** The route serving a method and path: the first registered match. */
  function Resolve(m: Method, path: seq<string>): (r: Option<Route>)
    ensures r.Some? ==> m in r.value.methods && Matches(r.value, path)
    ensures r.None? <==> forall i :: 0 <= i < |Routes| ==> !(m in Routes[i].methods && Matches(Routes[i], path))
  {
    match FirstMatch(m, path, 0)
    case None => None
    case Some(k) => Some(Routes[k])
  }

  /** Some route has this path, under any method (a 405 rather than 404). */
  predicate PathKnown(path: seq<string>) {
    exists i :: 0 <= i < |Routes| && Matches(Routes[i], path)
  }

  /** The three endpoints reachable without a token. */
  predicate Public(m: Method, path: seq<string>) {
    && |path| == 1
    && ((m == POST && (path[0] == "login" || path[0] == "register"))
        || (m in Reads && path[0] == "roles"))
  }

  /** An endpoint exists and demands a bearer token. */
  predicate RequiresAuth(m: Method, path: seq<string>) {
    var r := Resolve(m, path);
    r.Some? && r.value.guarded
  }

  /** A route is chosen when it matches and no earlier route does. */
  lemma ResolvesTo(m: Method, path: seq<string>, k: nat)
    requires k < |Routes| && m in Routes[k].methods && Matches(Routes[k], path)
    requires forall i :: 0 <= i < k ==> !(m in Routes[i].methods && Matches(Routes[i], path))
    ensures Resolve(m, path) == Some(Routes[k])
  {
    var r := FirstMatch(m, path, 0);
    assert r.Some?;
    assert !(r.value < k);
    assert !(k < r.value);
  }

  /** The resource names of the route table are pairwise distinct. */
  lemma ResourceNamesDistinct()
    ensures "roles" != "login" && "roles" != "register" && "roles" != "user" && "roles" != "users"
    ensures "users" != "login" && "users" != "register" && "users" != "user"
    ensures "user" != "login" && "user" != "register" && "login" != "register"
  {
    assert "roles"[0] == 'r' && "users"[0] == 'u' && "login"[0] == 'l' && "register"[0] == 'r';
    assert "roles"[1] == 'o' && "register"[1] == 'e';
    assert "user"[0] == 'u' && |"user"| != |"users"|;
  }

  /** The path a route serves, with `s` as its `{id}` segment. */
  function PathOf(route: Route, s: string): seq<string> {
    if route.takesId then [route.resource, s] else [route.resource]
  }

  /** No route is shadowed: each one serves its own methods on its own
      path, whatever the `{id}` segment. */
  lemma EveryRouteReachable(k: nat, m: Method, s: string)
    requires k < |Routes| && m in Routes[k].methods && s != ""
    ensures Resolve(m, PathOf(Routes[k], s)) == Some(Routes[k])
  {
    ResourceNamesDistinct();
    var path := PathOf(Routes[k], s);
    forall i | 0 <= i < k ensures !(m in Routes[i].methods && Matches(Routes[i], path)) {
    }
    ResolvesTo(m, path, k);
  }

  /** The gate holds every endpoint except the three public ones. */
  lemma RequiresAuthExactly(m: Method, path: seq<string>)
    ensures RequiresAuth(m, path) <==> Resolve(m, path).Some? && !Public(m, path)
  {
    var found := FirstMatch(m, path, 0);
    if found.Some? {
      GuardedUnlessPublic(found.value, m, path);
    }
  }

  /** Route by route: a route is guarded exactly when the request it
      serves is not one of the public ones. */
  lemma GuardedUnlessPublic(k: nat, m: Method, path: seq<string>)
    requires k < |Routes| && m in Routes[k].methods && Matches(Routes[k], path)
    ensures Routes[k].guarded <==> !Public(m, path)
  {
    var route := Routes[k];
    assert path[0] == route.resource;
    if k < 3 {
      assert !route.guarded && !route.takesId;
    } else {
      assert route.guarded;
      assert route.resource in {"user", "roles", "users"};
      assert route.resource == "roles" && !route.takesId ==> m == POST;
    }
  }

  /** Every endpoint under `/roles` except listing them, and every endpoint
      under `/users`, needs a token; so does `/user`. */
  lemma ResourcesGuarded(m: Method, path: seq<string>)
    requires Resolve(m, path).Some?
    requires |path| > 0 && (path[0] == "users" || path[0] == "user"
                            || (path[0] == "roles" && !(|path| == 1 && m in Reads)))
    ensures RequiresAuth(m, path)
  {
    RequiresAuthExactly(m, path);
  }

  /** `auth:sanctum`: the bearer text names a stored token whose owner
      still exists. Tokens never expire. */
  function Authenticate(db: Db, bearer: Option<string>): (r: Option<int>)
    ensures r.Some? <==> (bearer.Some? && ParseBearer(bearer.value).Some?
                          && ParseBearer(bearer.value).value in db.tokens
                          && db.tokens[ParseBearer(bearer.value).value] in db.users)
    ensures r.Some? ==> r.value in db.users
    ensures r.Some? ==> r.value == db.tokens[ParseBearer(bearer.value).value]
  {
    if bearer.None? then None
    else match ParseBearer(bearer.value)
      case None => None
      case Some(t) => if t in db.tokens && db.tokens[t] in db.users then Some(db.tokens[t]) else None
  }

  /** The text `createToken` hands out names exactly one stored token, and
      authenticates that token's owner while the owner exists. */
  lemma BearerNamesOneToken(db: Db, t: Token)
    requires t in db.tokens && db.tokens[t] in db.users
    ensures Authenticate(db, Some(PlainText(t))) == Some(db.tokens[t])
    ensures forall u :: u in db.tokens && PlainText(u) == PlainText(t) ==> u == t
  {
    PlainTextRoundTrip(t);
    forall u | u in db.tokens && PlainText(u) == PlainText(t) ensures u == t {
      PlainTextInjective(u, t);
    }
  }

  /** The path with its trailing empty segments dropped: Laravel strips
      trailing slashes from the request path before matching a route, so
      `/roles/` is `/roles`. */
  function Trimmed(path: seq<string>): (p: seq<string>)
    ensures |p| <= |path| && p == path[..|p|]
    ensures |p| > 0 ==> p[|p| - 1] != ""
    ensures forall i :: |p| <= i < |path| ==> path[i] == ""
    decreases |path|
  {
    if |path| > 0 && path[|path| - 1] == "" then Trimmed(path[..|path| - 1]) else path
  }

  /** A request: method, path segments, bearer text of the Authorization
      header, and body. */
  datatype Request = Request(verb: Method, path: seq<string>, bearer: Option<string>, input: Input)

  /** The `{role}` / `{user}` parameter bound to a row id. */
  function BoundId(path: seq<string>): Option<int> {
    if |path| < 2 then None
    else match Decimal.Parse(path[1])
      case None => None
      case Some(n) => Some(n)
  }

  /** Runs an action once routing and the gate have let the request in.
      `caller` is the authenticated user, `secret` the randomness of any
      token issued, `fault` a failure of the store while listing roles. */
  function Perform(db: Db, action: Action, req: Request, caller: Option<int>,
                   svc: Services, secret: string, fault: bool): (o: Outcome)
    requires action == CurrentUser ==> caller.Some? && caller.value in db.users
    ensures action in {ListRoles, CurrentUser, ShowRole, ListUsers, ShowUser} ==> o.db == db
    ensures (action in {ShowRole, UpdateRole, DestroyRole, ShowUser, UpdateUser, DestroyUser}
             && BoundId(req.path).None?) ==> o == Outcome(Failure(NotFound, Missing), db)
    ensures Consistent(db) ==> Consistent(o.db)
    ensures RolesResolved(db) && action != DestroyRole ==> RolesResolved(o.db)
  {
    var id := BoundId(req.path);
    var missing := Outcome(Failure(NotFound, Missing), db);
    match action
    case Login => AuthController.Login(db, req.input, svc, secret)
    case Register => AuthController.Register(db, req.input, svc, secret)
    case ListRoles => Outcome(RoleController.Index(db, fault), db)
    case CurrentUser => Outcome(Response(Ok, UserBody(ViewUser(db, caller.value))), db)
    case StoreRole => RoleController.Store(db, req.input)
    case ShowRole => if id.None? then missing else Outcome(RoleController.Show(db, id.value), db)
    case UpdateRole => if id.None? then missing else RoleController.Update(db, id.value, req.input)
    case DestroyRole => if id.None? then missing else RoleController.Destroy(db, id.value)
    case ListUsers => Outcome(UserController.Index(db), db)
    case StoreUser => UserController.Store(db, req.input, svc)
    case ShowUser => if id.None? then missing else Outcome(UserController.Show(db, id.value), db)
    case UpdateUser => if id.None? then missing else UserController.Update(db, id.value, req.input, svc)
    case DestroyUser => if id.None? then missing else UserController.Destroy(db, id.value)
  }

  /** The only route to `CurrentUser` sits behind the gate. */
  lemma CurrentUserGuarded(m: Method, path: seq<string>)
    requires Resolve(m, path).Some?
    ensures Resolve(m, path).value.action == CurrentUser ==> Resolve(m, path).value.guarded
  {
    assert forall i :: 0 <= i < |Routes| && Routes[i].action == CurrentUser ==> Routes[i].guarded;
    var k := FirstMatch(m, path, 0).value;
    assert Resolve(m, path).value == Routes[k];
  }

  /** The request reaches `RoleController.destroy`. */
  predicate DeletesRole(req: Request) {
    var r := Resolve(req.verb, Trimmed(req.path));
    r.Some? && r.value.action == DestroyRole
  }

  /** Routing on the trimmed path (404, or 405 for a known path under
      another method), then the gate (401) for protected routes, then the
      action. */
  function Dispatch(db: Db, req: Request, svc: Services, secret: string, fault: bool): (o: Outcome)
    ensures Resolve(req.verb, Trimmed(req.path)).None? ==>
              o.db == db && o.response.status in {NotFound, MethodNotAllowed}
    ensures RequiresAuth(req.verb, Trimmed(req.path)) && Authenticate(db, req.bearer).None? ==>
              o == Outcome(Failure(Unauthorized, Unauthenticated), db)
    ensures Consistent(db) ==> Consistent(o.db)
    ensures RolesResolved(db) && !DeletesRole(req) ==> RolesResolved(o.db)
  {
    var path := Trimmed(req.path);
    match Resolve(req.verb, path)
    case None =>
      if PathKnown(path) then Outcome(Failure(MethodNotAllowed, WrongMethod), db)
      else Outcome(Failure(NotFound, Missing), db)
    case Some(route) =>
      var caller := Authenticate(db, req.bearer);
      if route.guarded && caller.None? then Outcome(Failure(Unauthorized, Unauthenticated), db)
      else
        CurrentUserGuarded(req.verb, path);
        Perform(db, route.action, req.(path := path), caller, svc, secret, fault)
  }

  /** A trailing slash never changes the answer. */
  lemma TrailingSlashIgnored(db: Db, req: Request, svc: Services, secret: string, fault: bool)
    ensures Dispatch(db, req.(path := req.path + [""]), svc, secret, fault) == Dispatch(db, req, svc, secret, fault)
  {
    assert (req.path + [""])[..|req.path|] == req.path;
    assert Trimmed(req.path + [""]) == Trimmed(req.path);
  }

  /** Public endpoints never look at the bearer token. */
  lemma PublicIgnoresBearer(db: Db, req: Request, other: Option<string>, svc: Services, secret: string, fault: bool)
    requires Public(req.verb, Trimmed(req.path))
    ensures Dispatch(db, req, svc, secret, fault) == Dispatch(db, req.(bearer := other), svc, secret, fault)
  {
  }

  lemma ResolvesCurrentUser(path: seq<string>)
    requires path == ["user"]
    ensures Resolve(GET, path) == Some(Routes[3])
  {
    assert FirstMatch(GET, path, 0) == Some(3);
  }

  /** `GET /user` answers with the token owner's record and role. */
  lemma CurrentUserIsTokenOwner(db: Db, req: Request, svc: Services, secret: string, fault: bool)
    requires req.verb == GET && Trimmed(req.path) == ["user"]
    requires Authenticate(db, req.bearer).Some?
    ensures var o := Dispatch(db, req, svc, secret, fault);
            var id := Authenticate(db, req.bearer).value;
            o.db == db && o.response == Response(Ok, UserBody(ViewUser(db, id)))
  {
    ResolvesCurrentUser(Trimmed(req.path));
  }
}

=== FILE: auth_controller.dfy ===
/** `AuthController`: registration and login. Both catch every exception:
    a failed registration answers 400, a failed login 401. */
module AuthController {
  import opened Wrappers
  import opened Accounts
  import opened Tokens
  import opened Validation
  import opened Api
  import opened Services

  const RegisteredMessage := "Registration successful"
  const LoggedInMessage := "Login successful"

  /** `register`: validates like user creation, stores the user with the
      password hashed, and issues a token (`secret` is its random part). */
  function Register(db: Db, input: Input, svc: Services, secret: string): (o: Outcome)
    ensures o.response.status == Created <==> NewAccountAcceptable(db, input, svc.isEmail)
    ensures o.response.status != Created ==>
              o.db == db && o.response.status == BadRequest
              && o.response.body.ErrorBody? && o.response.body.error.Invalid?
              && o.response.body.error.violations != {}
    ensures o.response.status == Created ==>
              && o.response.body.AuthBody?
              && o.response.body.message == RegisteredMessage
              && var id := o.response.body.user.id;
              && var t := NextToken(db, secret);
              && o.db.users == db.users[id := User(input.fullName.value, input.email.value,
                                                   svc.hash(input.password.value), input.roleId.value)]
              && o.db.roles == db.roles
              && o.db.tokens == db.tokens[t := id]
              && o.response.body.token == PlainText(t)
              && o.response.body.user == ViewUser(o.db, id)
              && o.response.body.user.role.Some?
              && (IdsFresh(db) ==> id !in db.users && t !in db.tokens)
    ensures Consistent(db) ==> Consistent(o.db)
    ensures RolesResolved(db) ==> RolesResolved(o.db)
  {
    CreateUserRules(db, input, svc.isEmail);
    var violations := CreateUserViolations(db, input, svc.isEmail);
    if violations != {} then Outcome(Failure(BadRequest, Invalid(violations)), db)
    else
      var id := db.nextUserId;
      var created := AddUser(db, User(input.fullName.value, input.email.value,
                                       svc.hash(input.password.value), input.roleId.value));
      var t := NextToken(created, secret);
      var db' := IssueToken(created, id, secret);
      Outcome(Response(Created, AuthBody(RegisteredMessage, PlainText(t), ViewUser(db', id))), db')
  }

  /** `login`: an unknown e-mail and a wrong password fail alike. */
  function Login(db: Db, input: Input, svc: Services, secret: string): (o: Outcome)
    ensures o.response.status == Ok || o.response.status == Unauthorized
    ensures o.response.status != Ok ==> o.db == db
    ensures LoginViolations(input, svc.isEmail) != {} ==>
              o.response == Failure(Unauthorized, Invalid(LoginViolations(input, svc.isEmail)))
    ensures LoginViolations(input, svc.isEmail) == {} ==>
              var found := UserWithEmail(db.users, input.email.value);
              (o.response.status == Ok <==>
                 found.Some? && svc.check(input.password.value, db.users[found.value].passwordHash))
    ensures LoginViolations(input, svc.isEmail) == {} && o.response.status != Ok ==>
              o.response == Failure(Unauthorized, BadCredentials)
              && FixedMessage(BadCredentials) == Some("The provided credentials are incorrect.")
    ensures o.response.status == Ok ==>
              && o.response.body.AuthBody?
              && o.response.body.message == LoggedInMessage
              && var id := o.response.body.user.id;
              && id in db.users && db.users[id].email == input.email.value
              && o.db.users == db.users && o.db.roles == db.roles
              && o.db.tokens == db.tokens[NextToken(db, secret) := id]
              && o.response.body.token == PlainText(NextToken(db, secret))
              && o.response.body.user == ViewUser(db, id)
    ensures Consistent(db) ==> Consistent(o.db)
    ensures RolesResolved(db) ==> RolesResolved(o.db)
  {
    var violations := LoginViolations(input, svc.isEmail);
    if violations != {} then Outcome(Failure(Unauthorized, Invalid(violations)), db)
    else match UserWithEmail(db.users, input.email.value)
      case None => Outcome(Failure(Unauthorized, BadCredentials), db)
      case Some(id) =>
        if !svc.check(input.password.value, db.users[id].passwordHash) then
          Outcome(Failure(Unauthorized, BadCredentials), db)
        else
          var db' := IssueToken(db, id, secret);
          Outcome(Response(Ok, AuthBody(LoggedInMessage, PlainText(NextToken(db, secret)), ViewUser(db', id))), db')
  }

  /** No user enumeration: for a well-formed request, an e-mail nobody has
      and a known e-mail with the wrong password give the same answer and
      change nothing. */
  lemma LoginFailuresAlike(db: Db, unknown: Input, wrong: Input, svc: Services, s1: string, s2: string)
    requires LoginViolations(unknown, svc.isEmail) == {} && LoginViolations(wrong, svc.isEmail) == {}
    requires forall k :: k in db.users ==> db.users[k].email != unknown.email.value
    requires EmailsUnique(db.users)
    requires exists k :: k in db.users && db.users[k].email == wrong.email.value
                         && !svc.check(wrong.password.value, db.users[k].passwordHash)
    ensures Login(db, unknown, svc, s1) == Login(db, wrong, svc, s2)
    ensures Login(db, unknown, svc, s1) == Outcome(Failure(Unauthorized, BadCredentials), db)
  {
    var k :| k in db.users && db.users[k].email == wrong.email.value
             && !svc.check(wrong.password.value, db.users[k].passwordHash);
    assert UserWithEmail(db.users, wrong.email.value) == Some(k);
  }

  /** Registration stores no password in the clear, assuming no password
      hashes to itself. */
  lemma RegisterStoresNoPlaintext(db: Db, input: Input, svc: Services, secret: string)
    requires Disguises(svc)
    requires Register(db, input, svc, secret).response.status == Created
    ensures var o := Register(db, input, svc, secret);
            var id := o.response.body.user.id;
            id in o.db.users && o.db.users[id].passwordHash != input.password.value
  {
  }
}

=== FILE: auth_store.dfy ===
/** The front end's session store: the signed-in user and token in memory,
    plus the token persisted in the browser's storage under `token`. */
module AuthStore {
  import opened Wrappers
  import opened Accounts

  datatype Session = Session(user: Option<UserView>, token: string, persisted: Option<string>)

  /** JavaScript truthiness of an optional string. */
  predicate Truthy(v: Option<string>) {
    v.Some? && v.value != ""
  }

  /** The fields of a response body the store reads. */
  datatype Payload = Payload(token: Option<string>, user: Option<UserView>, message: Option<string>)

  /** What the HTTP client produced: a response (2xx), or a rejection
      carrying the error response's body when there was one. */
  datatype Reply = Received(data: Payload) | Rejected(body: Option<Payload>)

  /** `{ success, error }` as returned by an action. */
  datatype ActionResult = ActionResult(success: bool, error: Option<string>)

  datatype Step = Step(session: Session, result: ActionResult)

  /** The in-memory token mirrors the persisted one (or is '' without one). */
  predicate Mirrored(s: Session) {
    s.token == s.persisted.GetOr("")
  }

  /** The store's initial state, read from storage. */
  function Init(persisted: Option<string>): (s: Session)
    ensures s.user.None? && s.persisted == persisted
    ensures Mirrored(s)
  {
    Session(None, if Truthy(persisted) then persisted.value else "", persisted)
  }

  /** What `login` and `register` share: adopt the token and user of a
      response that carries a token; otherwise report `refused` (a response
      without token) or the server's message, falling back to `fallback`. */
  function Adopt(s: Session, reply: Reply, refused: string, fallback: string): (st: Step)
  {
    match reply
    case Received(data) =>
      if Truthy(data.token) then
        Step(Session(data.user, data.token.value, Some(data.token.value)), ActionResult(true, None))
      else Step(s, ActionResult(false, Some(refused)))
    case Rejected(body) =>
      var message := if body.Some? && Truthy(body.value.message) then body.value.message.value else fallback;
      Step(s, ActionResult(false, Some(message)))
  }

  const InvalidCredentials := "Invalid credentials"
  const LoginFailed := "Login failed. Please try again."
  const RegistrationRefused := "Registration failed"
  const RegistrationFailed := "Registration failed. Please try again."

  /** `login` */
  function Login(s: Session, reply: Reply): (st: Step)
    ensures st.result.success <==> reply.Received? && Truthy(reply.data.token)
    ensures st.result.success ==>
              st.session.token == reply.data.token.value && st.session.user == reply.data.user
              && st.session.persisted == Some(st.session.token) && st.result.error.None?
    ensures !st.result.success ==> st.session == s && st.result.error.Some?
    ensures reply.Received? && !Truthy(reply.data.token) ==> st.result.error == Some(InvalidCredentials)
    ensures reply.Rejected? ==>
              st.result.error == Some(if reply.body.Some? && Truthy(reply.body.value.message)
                                      then reply.body.value.message.value else LoginFailed)
    ensures Mirrored(s) ==> Mirrored(st.session)
  {
    Adopt(s, reply, InvalidCredentials, LoginFailed)
  }

  /** `register` */
  function Register(s: Session, reply: Reply): (st: Step)
    ensures st.result.success <==> reply.Received? && Truthy(reply.data.token)
    ensures st.result.success ==>
              st.session.token == reply.data.token.value && st.session.user == reply.data.user
              && st.session.persisted == Some(st.session.token) && st.result.error.None?
    ensures !st.result.success ==> st.session == s && st.result.error.Some?
    ensures reply.Received? && !Truthy(reply.data.token) ==> st.result.error == Some(RegistrationRefused)
    ensures reply.Rejected? ==>
              st.result.error == Some(if reply.body.Some? && Truthy(reply.body.value.message)
                                      then reply.body.value.message.value else RegistrationFailed)
    ensures Mirrored(s) ==> Mirrored(st.session)
  {
    Adopt(s, reply, RegistrationRefused, RegistrationFailed)
  }

  /** `logout` */
  function Logout(s: Session): (s': Session)
    ensures s'.user.None? && !Truthy(s'.persisted) && s'.persisted.None?
    ensures Mirrored(s')
  {
    Session(None, "", None)
  }

  lemma LogoutIdempotent(s: Session)
    ensures Logout(Logout(s)) == Logout(s)
  {
  }
}

=== FILE: decimal.dfy ===
/** Decimal renderings of natural numbers. The token text handed to a client
    starts with the token's numeric id, and route parameters such as the `5`
    of `/users/5` are read back from decimal text. */
module Decimal {
  import opened Wrappers

  predicate IsDigit(c: char) {
    '0' <= c <= '9'
  }

  predicate AllDigits(s: string) {
    forall i :: 0 <= i < |s| ==> IsDigit(s[i])
  }

  function DigitChar(d: nat): (c: char)
    requires d < 10
    ensures IsDigit(c)
    ensures c as int - '0' as int == d
  {
    ('0' as int + d) as char
  }

  /** The shortest decimal text of `n`. */
  function FromNat(n: nat): (s: string)
    ensures |s| >= 1
    ensures AllDigits(s)
    ensures |s| > 1 ==> s[0] != '0'
    decreases n
  {
    if n < 10 then [DigitChar(n)] else FromNat(n / 10) + [DigitChar(n % 10)]
  }

  /** The number a non-empty run of digits denotes (leading zeros allowed). */
  function Value(s: string): nat
    requires AllDigits(s)
    decreases |s|
  {
    if s == [] then 0
    else Value(s[..|s| - 1]) * 10 + (s[|s| - 1] as int - '0' as int)
  }

  /** Reads a decimal number; anything that is not a non-empty run of
      digits is rejected. */
  function Parse(s: string): (r: Option<nat>)
    ensures r.Some? <==> |s| > 0 && AllDigits(s)
  {
    if |s| > 0 && AllDigits(s) then Some(Value(s)) else None
  }

  lemma {:induction false} ValueFromNat(n: nat)
    ensures Value(FromNat(n)) == n
    decreases n
  {
    if n >= 10 {
      var prefix := FromNat(n / 10);
      var s := prefix + [DigitChar(n % 10)];
      assert s[..|s| - 1] == prefix;
      ValueFromNat(n / 10);
    }
  }

  /** Rendering then reading gives the number back. */
  lemma ParseFromNat(n: nat)
    ensures Parse(FromNat(n)) == Some(n)
  {
    ValueFromNat(n);
  }
}

=== FILE: ordered_keys.dfy ===
/** Ascending enumeration of a finite set of ids: the order in which the
    store lists its rows and the row `first()` picks. */
module OrderedKeys {

  predicate Ascending(s: seq<int>) {
    forall i, j :: 0 <= i < j < |s| ==> s[i] < s[j]
  }

  lemma NonEmptyHasMember(s: set<int>)
    requires s != {}
    ensures exists x :: x in s
  {
    if forall x :: x !in s {
      assert false;
    }
  }

  /** A smallest element of a non-empty set, found by removing one element
      at a time. */
  lemma {:induction false} LeastOf(s: set<int>) returns (m: int)
    requires s != {}
    ensures m in s
    ensures forall y :: y in s ==> m <= y
    decreases |s|
  {
    NonEmptyHasMember(s);
    var x :| x in s;
    var rest := s - {x};
    if rest == {} {
      m := x;
      forall y | y in s
        ensures m <= y
      {
        assert y == x || y in rest;
      }
    } else {
      var r := LeastOf(rest);
      m := if x < r then x else r;
      forall y | y in s
        ensures m <= y
      {
        assert y == x || y in rest;
      }
    }
  }

  lemma LeastExists(s: set<int>)
    requires s != {}
    ensures exists m :: m in s && forall y :: y in s ==> m <= y
  {
    var m := LeastOf(s);
  }

  /** The smallest element of a non-empty set. */
  function Least(s: set<int>): (m: int)
    requires s != {}
    ensures m in s
    ensures forall y :: y in s ==> m <= y
  {
    LeastExists(s);
    var m :| m in s && forall y :: y in s ==> m <= y;
    m
  }

  /** The elements of `s` listed once each, smallest first. */
  function Sorted(s: set<int>): (r: seq<int>)
    ensures |r| == |s|
    ensures Ascending(r)
    ensures forall i :: 0 <= i < |r| ==> r[i] in s
    ensures forall x :: x in s ==> x in r
    decreases |s|
  {
    if s == {} then []
    else
      var m := Least(s);
      [m] + Sorted(s - {m})
  }
}

=== FILE: role_controller.dfy ===
/** `RoleController`: list, create, show, update and delete roles. A role
    id that names no row is answered with 404 before the controller runs
    (route model binding). */
module RoleController {
  import opened Wrappers
  import opened Accounts
  import opened Validation
  import opened Api

  /** `index`: every role, or 500 when reading the table fails (`fault`). */
  function Index(db: Db, fault: bool): (r: Response)
    ensures fault ==> r.status == ServerError && r.body == ErrorBody(FetchFailed)
                      && FixedMessage(r.body.error) == Some("Failed to fetch roles")
    ensures !fault ==> r.status == Ok && r.body.RolesBody?
    ensures !fault ==> |r.body.roles| == |db.roles|
    ensures !fault ==> forall id :: id in db.roles ==> exists i :: 0 <= i < |r.body.roles| && r.body.roles[i].id == id
    ensures !fault ==> forall i :: 0 <= i < |r.body.roles| ==> Some(r.body.roles[i]) == ViewRole(db.roles, r.body.roles[i].id)
    ensures !fault ==> forall i, j :: 0 <= i < j < |r.body.roles| ==> r.body.roles[i].id < r.body.roles[j].id
  {
    if fault then Failure(ServerError, FetchFailed) else Response(Ok, RolesBody(AllRoles(db.roles)))
  }

  /** `store` */
  function Store(db: Db, input: Input): (o: Outcome)
    ensures o.response.status == Created <==> RoleAcceptable(db.roles, input, None)
    ensures o.response.status != Created ==>
              o.db == db && o.response.status == Unprocessable
              && o.response.body.ErrorBody? && o.response.body.error.Invalid?
              && o.response.body.error.violations != {}
    ensures o.response.status == Created ==>
              && o.response.body.RoleBody?
              && var id := o.response.body.role.id;
              && o.db.roles == db.roles[id := Role(input.name.value, input.description.value)]
              && (IdsFresh(db) ==> id !in db.roles && |o.db.roles| == |db.roles| + 1)
              && Some(o.response.body.role) == ViewRole(o.db.roles, id)
    ensures o.db.users == db.users && o.db.tokens == db.tokens
    ensures Consistent(db) ==> Consistent(o.db)
    ensures RolesResolved(db) ==> RolesResolved(o.db)
  {
    RoleRules(db.roles, input, None);
    var violations := RoleViolations(db.roles, input, None);
    if violations != {} then Outcome(Failure(Unprocessable, Invalid(violations)), db)
    else
      var id := db.nextRoleId;
      var db' := AddRole(db, Role(input.name.value, input.description.value));
      Outcome(Response(Created, RoleBody(ViewRole(db'.roles, id).value)), db')
  }

  /** `show` */
  function Show(db: Db, id: int): (r: Response)
    ensures id !in db.roles <==> r == Failure(NotFound, Missing)
    ensures id in db.roles ==> r.status == Ok && r.body.RoleBody?
                               && r.body.role == RoleView(id, db.roles[id].name, db.roles[id].description)
  {
    match ViewRole(db.roles, id)
    case None => Failure(NotFound, Missing)
    case Some(v) => Response(Ok, RoleBody(v))
  }

  /** `update`: the role's own current name does not count as taken. */
  function Update(db: Db, id: int, input: Input): (o: Outcome)
    ensures id !in db.roles ==> o == Outcome(Failure(NotFound, Missing), db)
    ensures id in db.roles ==> (o.response.status == Ok <==> RoleAcceptable(db.roles, input, Some(id)))
    ensures o.response.status != Ok ==> o.db == db
    ensures id in db.roles && o.response.status != Ok ==>
              o.response.status == Unprocessable && o.response.body.ErrorBody?
              && o.response.body.error.Invalid? && o.response.body.error.violations != {}
    ensures o.response.status == Ok ==>
              && o.db == db.(roles := db.roles[id := Role(input.name.value, input.description.value)])
              && o.response.body == RoleBody(RoleView(id, input.name.value, input.description.value))
    ensures Consistent(db) ==> Consistent(o.db)
    ensures RolesResolved(db) ==> RolesResolved(o.db)
  {
    if id !in db.roles then Outcome(Failure(NotFound, Missing), db)
    else
      RoleRules(db.roles, input, Some(id));
      var violations := RoleViolations(db.roles, input, Some(id));
      if violations != {} then Outcome(Failure(Unprocessable, Invalid(violations)), db)
      else
        var role := Role(input.name.value, input.description.value);
        Outcome(Response(Ok, RoleBody(RoleView(id, role.name, role.description))),
                db.(roles := db.roles[id := role]))
  }

  /** `destroy`: removes the role whether or not users still refer to it. */
  function Destroy(db: Db, id: int): (o: Outcome)
    ensures id !in db.roles ==> o == Outcome(Failure(NotFound, Missing), db)
    ensures id in db.roles ==> o.response == Response(NoContent, Empty)
    ensures id in db.roles ==> o.db.roles.Keys == db.roles.Keys - {id}
    ensures forall k :: k in o.db.roles ==> k in db.roles && o.db.roles[k] == db.roles[k]
    ensures o.db.users == db.users && o.db.tokens == db.tokens
    ensures Consistent(db) ==> Consistent(o.db)
  {
    if id !in db.roles then Outcome(Failure(NotFound, Missing), db)
    else Outcome(Response(NoContent, Empty), db.(roles := db.roles - {id}))
  }

  /** Updating a role without changing its name is never refused as a
      name clash. */
  lemma UpdateKeepsOwnName(db: Db, id: int, input: Input)
    requires Consistent(db) && id in db.roles
    requires input.name == Some(db.roles[id].name) && !Blank(db.roles[id].name)
    requires Filled(input.description)
    ensures Update(db, id, input).response.status == Ok
  {
  }

  /** A stored role reads back as stored, under the id the 201 reported. */
  lemma StoreThenShow(db: Db, input: Input)
    requires Store(db, input).response.status == Created
    ensures var o := Store(db, input);
            var id := o.response.body.role.id;
            Show(o.db, id) == Response(Ok, RoleBody(RoleView(id, input.name.value, input.description.value)))
  {
  }

  /** After an update, the role reads back with the new fields, and every
      other role reads back as before. */
  lemma UpdateThenShow(db: Db, id: int, input: Input, other: int)
    requires Update(db, id, input).response.status == Ok
    requires other != id
    ensures var o := Update(db, id, input);
            && Show(o.db, id) == Response(Ok, RoleBody(RoleView(id, input.name.value, input.description.value)))
            && Show(o.db, other) == Show(db, other)
  {
  }

  /** A deleted role is gone for `show`; every other role is untouched. */
  lemma DestroyThenShow(db: Db, id: int, other: int)
    requires other != id
    ensures var o := Destroy(db, id);
            && Show(o.db, id) == Failure(NotFound, Missing)
            && Show(o.db, other) == Show(db, other)
  {
  }

  /** Deleting a role can leave a user whose role_id names no role: the
      store does not keep "every user has a role" across `destroy`. */
  lemma DestroyCanOrphanUsers()
    ensures var db := Db(map[1 := Role("Admin", "Administrator role")],
                         map[1 := User("Test Admin", "test@example.com", "h", 1)],
                         map[], 2, 2, 1);
            && Consistent(db) && RolesResolved(db)
            && Destroy(db, 1).response.status == NoContent
            && !RolesResolved(Destroy(db, 1).db)
  {
    var db := Db(map[1 := Role("Admin", "Administrator role")],
                 map[1 := User("Test Admin", "test@example.com", "h", 1)],
                 map[], 2, 2, 1);
    assert 1 in Destroy(db, 1).db.users;
  }
}

=== FILE: router.dfy ===
/** The front end's route table and its `beforeEach` navigation guard. */
module Router {
  import opened Wrappers
  import AuthStore

  datatype ClientRoute = ClientRoute(path: string, name: string, requiresAuth: bool)

  const ClientRoutes: seq<ClientRoute> := [
    ClientRoute("/", "Home", true),
    ClientRoute("/login", "Login", false),
    ClientRoute("/users", "Users", true),
    ClientRoute("/roles", "Roles", true),
    ClientRoute("/register", "Register", false)
  ]

  const LoginPath := "/login"

  /** `to.meta.requiresAuth` for the target path; a path that matches no
      route has no meta and is not flagged. */
  function RequiresAuthFrom(path: string, from: nat): (b: bool)
    requires from <= |ClientRoutes|
    ensures b ==> exists i :: from <= i < |ClientRoutes| && ClientRoutes[i].path == path && ClientRoutes[i].requiresAuth
    decreases |ClientRoutes| - from
  {
    if from == |ClientRoutes| then false
    else if ClientRoutes[from].path == path then ClientRoutes[from].requiresAuth
    else RequiresAuthFrom(path, from + 1)
  }

  function RequiresAuth(path: string): bool {
    RequiresAuthFrom(path, 0)
  }

  datatype Decision = Proceed | Redirect(path: string)

  /** `beforeEach`: only the presence of a stored token is consulted. */
  function BeforeEach(to: string, persisted: Option<string>): (d: Decision)
    ensures d == Redirect(LoginPath) <==> RequiresAuth(to) && !AuthStore.Truthy(persisted)
    ensures d != Redirect(LoginPath) ==> d == Proceed
  {
    if RequiresAuth(to) && !AuthStore.Truthy(persisted) then Redirect(LoginPath) else Proceed
  }

  /** The flags of the route table. */
  lemma Flags()
    ensures RequiresAuth("/") && RequiresAuth("/users") && RequiresAuth("/roles")
    ensures !RequiresAuth("/login") && !RequiresAuth("/register")
  {
  }

  /** Two stored tokens, valid or not, are treated alike. */
  lemma OnlyPresenceMatters(to: string, a: Option<string>, b: Option<string>)
    requires AuthStore.Truthy(a) == AuthStore.Truthy(b)
    ensures BeforeEach(to, a) == BeforeEach(to, b)
  {
  }

  /** A redirect lands on a page the guard lets through. */
  lemma RedirectSettles(to: string, persisted: Option<string>)
    ensures BeforeEach(to, persisted).Redirect? ==>
              BeforeEach(BeforeEach(to, persisted).path, persisted) == Proceed
  {
    assert !RequiresAuth(LoginPath);
  }

  /** After logout every flagged page redirects to the login page. */
  lemma LogoutLocksPages(s: AuthStore.Session, to: string)
    requires RequiresAuth(to)
    ensures BeforeEach(to, AuthStore.Logout(s).persisted) == Redirect(LoginPath)
  {
  }
}

=== FILE: scenarios.dfy ===
/** Properties that span several requests, or the server and the front
    end together. */
module Scenarios {
  import opened Wrappers
  import opened Accounts
  import opened Tokens
  import opened Validation
  import opened Api
  import opened Services
  import AuthController
  import UserController
  import ApiRoutes
  import AuthStore
  import Router

  /** The JSON body of a response as the front end reads it. `describe`
      stands for the text of messages that are not fixed strings (the
      validator's, the framework's 404 and 405 pages). */
  function ToPayload(body: Body, describe: ApiError -> string): AuthStore.Payload {
    match body
    case AuthBody(message, token, user) => AuthStore.Payload(Some(token), Some(user), Some(message))
    case ErrorBody(e) => AuthStore.Payload(None, None, Some(FixedMessage(e).GetOr(describe(e))))
    case _ => AuthStore.Payload(None, None, None)
  }

  /** The HTTP client resolves on a 2xx status and rejects otherwise. */
  function Transmit(r: Response, describe: ApiError -> string): AuthStore.Reply {
    if 200 <= r.status < 300 then AuthStore.Received(ToPayload(r.body, describe))
    else AuthStore.Rejected(Some(ToPayload(r.body, describe)))
  }

  /** The credentials of a registration, as a login request. */
  function LoginWith(input: Input): Input {
    Input(None, input.email, input.password, false, None, None, None, None)
  }

  /** After a successful registration, logging in with the same e-mail and
      password succeeds and issues a token for the new account. */
  lemma RegisterThenLogin(db: Db, input: Input, svc: Services, s1: string, s2: string)
    requires Sound(svc) && Consistent(db)
    requires AuthController.Register(db, input, svc, s1).response.status == Created
    ensures var reg := AuthController.Register(db, input, svc, s1);
            var login := AuthController.Login(reg.db, LoginWith(input), svc, s2);
            && login.response.status == Ok
            && login.response.body.user.id == reg.response.body.user.id
  {
    var reg := AuthController.Register(db, input, svc, s1);
    var id := reg.response.body.user.id;
    var email := input.email.value;
    assert reg.db.users[id].email == email;
    assert UserWithEmail(reg.db.users, email) == Some(id) by {
      assert forall k :: k in reg.db.users && reg.db.users[k].email == email ==> k == id;
    }
    assert svc.check(input.password.value, reg.db.users[id].passwordHash);
    assert LoginViolations(LoginWith(input), svc.isEmail) == {};
  }

  /** Registering an e-mail a second time fails with `EmailTaken` and leaves
      the store as the first registration left it. */
  lemma RegisterTwiceFails(db: Db, first: Input, second: Input, svc: Services, s1: string, s2: string)
    requires AuthController.Register(db, first, svc, s1).response.status == Created
    requires second.email == first.email
    ensures var reg := AuthController.Register(db, first, svc, s1);
            var again := AuthController.Register(reg.db, second, svc, s2);
            && again.response.status == BadRequest
            && again.db == reg.db
            && EmailTaken in again.response.body.error.violations
  {
    var reg := AuthController.Register(db, first, svc, s1);
    var id := reg.response.body.user.id;
    assert reg.db.users[id].email == first.email.value;
    assert EmailUsed(reg.db.users, second.email.value, None);
  }

  /** The token text returned by a registration authenticates `GET /user`,
      which answers with the new account. */
  lemma RegisterThenCurrentUser(db: Db, input: Input, svc: Services, s1: string, s2: string, fault: bool)
    requires Consistent(db)
    requires AuthController.Register(db, input, svc, s1).response.status == Created
    ensures var reg := AuthController.Register(db, input, svc, s1);
            var req := ApiRoutes.Request(ApiRoutes.GET, ["user"], Some(reg.response.body.token), input);
            var me := ApiRoutes.Dispatch(reg.db, req, svc, s2, fault);
            && me.db == reg.db
            && me.response.status == Ok
            && me.response.body.UserBody?
            && me.response.body.user.email == input.email.value
  {
    var reg := AuthController.Register(db, input, svc, s1);
    var t := NextToken(db, s1);
    var id := reg.response.body.user.id;
    assert reg.response.body.token == PlainText(t);
    assert t in reg.db.tokens && reg.db.tokens[t] == id && id in reg.db.users;
    assert reg.db.users[id].email == input.email.value;
    PlainTextRoundTrip(t);
    var req := ApiRoutes.Request(ApiRoutes.GET, ["user"], Some(reg.response.body.token), input);
    assert ApiRoutes.Authenticate(reg.db, req.bearer) == Some(id);
    ApiRoutes.CurrentUserIsTokenOwner(reg.db, req, svc, s2, fault);
  }

  /** The front end adopts a successful registration: it keeps the issued
      token in memory and in storage, and the guard then lets it onto the
      home page. */
  lemma ClientAdoptsRegistration(db: Db, input: Input, svc: Services, secret: string,
                                 s: AuthStore.Session, describe: ApiError -> string)
    requires AuthController.Register(db, input, svc, secret).response.status == Created
    ensures var reg := AuthController.Register(db, input, svc, secret);
            var step := AuthStore.Register(s, Transmit(reg.response, describe));
            && step.result.success
            && step.session.token == PlainText(NextToken(db, secret))
            && step.session.persisted == Some(step.session.token)
            && step.session.user == Some(reg.response.body.user)
            && Router.BeforeEach("/", step.session.persisted) == Router.Proceed
  {
  }

  /** A wrong password shows the server's uniform message and leaves the
      session as it was. */
  lemma ClientShowsBadCredentials(db: Db, input: Input, svc: Services, secret: string,
                                  s: AuthStore.Session, describe: ApiError -> string)
    requires LoginViolations(input, svc.isEmail) == {}
    requires AuthController.Login(db, input, svc, secret).response.status != Ok
    ensures var o := AuthController.Login(db, input, svc, secret);
            var step := AuthStore.Login(s, Transmit(o.response, describe));
            && step.session == s
            && step.result == AuthStore.ActionResult(false, Some("The provided credentials are incorrect."))
  {
  }

  /** An update that carries no `password` key keeps the previous password
      working. */
  lemma UpdateWithoutPasswordKeepsLogin(db: Db, id: int, input: Input, svc: Services, secret: string, previous: string)
    requires Consistent(db)
    requires !PasswordSent(input)
    requires id in db.users && svc.check(previous, db.users[id].passwordHash)
    requires UserController.Update(db, id, input, svc).response.status == Ok
    requires Filled(Some(previous))
    ensures var upd := UserController.Update(db, id, input, svc);
            var login := AuthController.Login(upd.db, Input(None, input.email, Some(previous), false, None, None, None, None), svc, secret);
            login.response.status == Ok && login.response.body.user.id == id
  {
    var upd := UserController.Update(db, id, input, svc);
    var email := input.email.value;
    assert upd.db.users[id].email == email;
    assert UserWithEmail(upd.db.users, email) == Some(id) by {
      assert forall k :: k in upd.db.users && upd.db.users[k].email == email ==> k == id;
    }
    assert upd.db.users[id].passwordHash == db.users[id].passwordHash;
  }
}

=== FILE: seeders.dfy ===
/** The database seeders: `RoleSeeder` creates the two roles, and
    `DatabaseSeeder` runs it and then creates the admin account. Both insert
    rows directly, without the API's validation. */
module Seeders {
  import opened Wrappers
  import opened Accounts
  import opened Services

  const AdminRole := Role("Admin", "Administrator role")
  const UserRole := Role("User", "Regular user role")

  /** How a seeder run ends. The store enforces unique role names and
      e-mails, so an insert that would duplicate one throws and aborts the
      run. Seeders run outside a transaction, so `Aborted` carries the
      store as the inserts before the failing one left it. */
  datatype Run = Completed(db: Db) | Aborted(db: Db)

  /** Some role is named `name`. */
  ghost predicate HasRoleNamed(roles: map<int, Role>, name: string) {
    exists k :: k in roles && roles[k].name == name
  }

  /** Some user has the e-mail. */
  ghost predicate HasEmail(users: map<int, User>, email: string) {
    exists k :: k in users && users[k].email == email
  }

  /** Inserting a role whose name is new keeps every invariant, and under
      fresh ids every role named otherwise was there before. */
  lemma AddNewRole(db: Db, role: Role)
    ensures var db' := AddRole(db, role);
            && (IdsFresh(db) ==> forall k :: k in db.roles ==> k in db'.roles && db'.roles[k] == db.roles[k])
            && (forall k :: k in db'.roles && db'.roles[k].name != role.name ==> k in db.roles)
            && (Consistent(db) && !HasRoleNamed(db.roles, role.name) ==> Consistent(db'))
            && (RolesResolved(db) ==> RolesResolved(db'))
  {
  }

  /** `RoleSeeder::run`: `Role::create` for Admin, then for User. */
  function RunRoleSeeder(db: Db): (r: Run)
    ensures r.Completed? ==> !HasRoleNamed(db.roles, "Admin")
    ensures IdsFresh(db) ==>
              (r.Completed? <==> !HasRoleNamed(db.roles, "Admin") && !HasRoleNamed(db.roles, "User"))
    ensures r.Completed? ==>
              && r.db.roles == db.roles[db.nextRoleId := AdminRole][db.nextRoleId + 1 := UserRole]
              && r.db.nextRoleId == db.nextRoleId + 2
    ensures HasRoleNamed(db.roles, "Admin") ==> r == Aborted(db)
    ensures r.db.users == db.users && r.db.tokens == db.tokens
    ensures r.db.nextUserId == db.nextUserId && r.db.nextTokenId == db.nextTokenId
    ensures IdsFresh(db) ==> IdsFresh(r.db)
    ensures Consistent(db) ==> Consistent(r.db)
    ensures RolesResolved(db) ==> RolesResolved(r.db)
  {
    if RoleNamed(db.roles, "Admin").Some? then Aborted(db)
    else
      var withAdmin := AddRole(db, AdminRole);
      AddNewRole(db, AdminRole);
      match RoleNamed(withAdmin.roles, "User")
      case Some(k) =>
        assert k in db.roles && db.roles[k].name == "User";
        Aborted(withAdmin)
      case None =>
        assert IdsFresh(db) ==> !HasRoleNamed(db.roles, "User");
        AddNewRole(withAdmin, UserRole);
        Completed(AddRole(withAdmin, UserRole))
  }

  /** `DatabaseSeeder::run`: the role seeder, then the admin account under
      the first role named "Admin". */
  function RunDatabaseSeeder(db: Db, svc: Services): (r: Run)
    ensures r.Completed? ==>
              && RunRoleSeeder(db).Completed?
              && !HasEmail(db.users, "test@example.com")
              && r.db.roles == RunRoleSeeder(db).db.roles
              && r.db.users == db.users[db.nextUserId := User("Test Admin", "test@example.com",
                                                              svc.hash("password"), db.nextRoleId)]
              && r.db.roles[db.nextRoleId].name == "Admin"
              && RoleNamed(r.db.roles, "Admin") == Some(db.nextRoleId)
    ensures IdsFresh(db) ==>
              (r.Completed? <==> && !HasRoleNamed(db.roles, "Admin") && !HasRoleNamed(db.roles, "User")
                                 && !HasEmail(db.users, "test@example.com"))
    ensures r.Aborted? ==> r.db.users == db.users
    ensures r.db.tokens == db.tokens
    ensures IdsFresh(db) ==> IdsFresh(r.db)
    ensures Consistent(db) ==> Consistent(r.db)
    ensures RolesResolved(db) ==> RolesResolved(r.db)
  {
    match RunRoleSeeder(db)
    case Aborted(partial) => Aborted(partial)
    case Completed(seeded) =>
      assert seeded.roles[db.nextRoleId] == AdminRole;
      assert forall k :: k in seeded.roles && seeded.roles[k].name == "Admin" ==> k == db.nextRoleId;
      match RoleNamed(seeded.roles, "Admin")
      case None => Aborted(seeded)
      case Some(adminId) =>
        if UserWithEmail(seeded.users, "test@example.com").Some? then Aborted(seeded)
        else Completed(AddUser(seeded, User("Test Admin", "test@example.com", svc.hash("password"), adminId)))
  }

  /** Seeding a freshly migrated database. */
  function Seed(svc: Services): (db: Db)
    ensures db.roles == map[1 := AdminRole, 2 := UserRole]
    ensures db.users == map[1 := User("Test Admin", "test@example.com", svc.hash("password"), 1)]
    ensures db.tokens == map[]
  {
    assert IdsFresh(Empty) && Empty.roles == map[] && Empty.users == map[];
    RunDatabaseSeeder(Empty, svc).db
  }

  /** The seeded database: roles Admin (id 1) and User (id 2), one admin
      account with the Admin role and the hash of "password", and no
      tokens. It satisfies every invariant, including that each user's
      role exists. */
  lemma SeededState(svc: Services)
    ensures RunDatabaseSeeder(Empty, svc).Completed?
    ensures var db := Seed(svc);
            && db.roles == map[1 := AdminRole, 2 := UserRole]
            && db.users == map[1 := User("Test Admin", "test@example.com", svc.hash("password"), 1)]
            && db.tokens == map[]
            && Consistent(db) && RolesResolved(db)
  {
    var db := Seed(svc);
    assert IdsFresh(Empty) && Empty.roles == map[] && Empty.users == map[];
    assert db.roles[2].name != "Admin";
  }

  /** Seeding twice aborts at the first insert: the role Admin exists, so
      the second run leaves the seeded store as it was. */
  lemma ReseedAborts(svc: Services)
    ensures RunDatabaseSeeder(Seed(svc), svc) == Aborted(Seed(svc))
  {
    assert Seed(svc).roles[1].name == "Admin";
  }

  /** Once the seeded database's admin password is checked against the hash
      the seeder stored, logging in as the admin with "password" passes the
      hash check. */
  lemma SeededAdminPassword(svc: Services)
    requires Sound(svc)
    ensures var db := Seed(svc);
            1 in db.users && svc.check("password", db.users[1].passwordHash)
  {
    var h := svc.hash("password");
    assert svc.check("password", h);
    assert Seed(svc).users[1].passwordHash == h;
  }
}

=== FILE: services.dfy ===
/** The collaborators the controllers call but whose internals are not part
    of this model: password hashing (`Hash::make` / `Hash::check`) and the
    validator's e-mail format rule. They are passed in as functions, so
    every property proved here holds for every implementation that meets
    the stated assumptions. */
module Services {

  datatype Services = Services(
    hash: string -> string,
    check: (string, string) -> bool,
    isEmail: string -> bool)

  /** The one thing the model assumes of hashing: a password checks
      against its own hash. */
  ghost predicate Sound(svc: Services) {
    forall p :: svc.check(p, svc.hash(p))
  }

  /** An additional, optional assumption: no password hashes to itself. */
  ghost predicate Disguises(svc: Services) {
    forall p :: svc.hash(p) != p
  }
}

=== FILE: tokens.dfy ===
/** Personal access tokens. A token is a database row id plus a random
    secret; the text a client receives is the id in decimal, a `|`, and the
    secret. */
module Tokens {
  import opened Wrappers
  import Decimal

  datatype Token = Token(id: nat, secret: string)

  /** The bearer text handed out when a token is issued. */
  function PlainText(t: Token): (s: string)
    ensures |s| > 0
  {
    Decimal.FromNat(t.id) + "|" + t.secret
  }

  /** Position of the first `|` in `s`, if any. */
  function FirstBar(s: string): (r: Option<nat>)
    ensures r.Some? ==> r.value < |s| && s[r.value] == '|'
    ensures r.Some? ==> forall i :: 0 <= i < r.value ==> s[i] != '|'
    ensures r.None? ==> forall i :: 0 <= i < |s| ==> s[i] != '|'
    decreases |s|
  {
    if s == [] then None
    else if s[0] == '|' then Some(0)
    else match FirstBar(s[1..])
      case None => None
      case Some(k) => Some(k + 1)
  }

  /** Splits bearer text at its first `|` into a row id and a secret. Text
      without a `|`, or whose id part is not a decimal number, names no
      token. */
  function ParseBearer(s: string): (r: Option<Token>)
  {
    match FirstBar(s)
    case None => None
    case Some(k) =>
      match Decimal.Parse(s[..k])
      case None => None
      case Some(id) => Some(Token(id, s[k + 1..]))
  }

  /** The bearer text of a token names exactly that token, whatever its
      secret contains. */
  lemma PlainTextRoundTrip(t: Token)
    ensures ParseBearer(PlainText(t)) == Some(t)
  {
    var digits := Decimal.FromNat(t.id);
    var s := PlainText(t);
    assert s[..|digits|] == digits;
    assert s[|digits| + 1..] == t.secret;
    assert s[|digits|] == '|';
    assert forall i :: 0 <= i < |digits| ==> s[i] == digits[i] && s[i] != '|';
    Decimal.ParseFromNat(t.id);
  }

  /** Distinct tokens never share their bearer text. */
  lemma PlainTextInjective(a: Token, b: Token)
    requires PlainText(a) == PlainText(b)
    ensures a == b
  {
    PlainTextRoundTrip(a);
    PlainTextRoundTrip(b);
  }
}

=== FILE: user_controller.dfy ===
/** `UserController`: list, create, show, update and delete users. A user
    id that names no row is answered with 404 before the controller runs
    (route model binding). */
module UserController {
  import opened Wrappers
  import opened Accounts
  import opened Validation
  import opened Api
  import opened Services

  /** `index`: every user, each with the role its role_id names. */
  function Index(db: Db): (r: Response)
    ensures r.status == Ok && r.body.UsersBody?
    ensures |r.body.users| == |db.users|
    ensures forall id :: id in db.users ==> exists i :: 0 <= i < |r.body.users| && r.body.users[i].id == id
    ensures forall i :: 0 <= i < |r.body.users| ==>
              var v := r.body.users[i];
              v.id in db.users && v == ViewUser(db, v.id)
    ensures forall i, j :: 0 <= i < j < |r.body.users| ==> r.body.users[i].id < r.body.users[j].id
  {
    Response(Ok, UsersBody(AllUsers(db)))
  }

  /** `store`: the same rules as registration; the password is kept only
      as its hash. */
  function Store(db: Db, input: Input, svc: Services): (o: Outcome)
    ensures o.response.status == Created <==> NewAccountAcceptable(db, input, svc.isEmail)
    ensures o.response.status != Created ==>
              o.db == db && o.response.status == Unprocessable
              && o.response.body.ErrorBody? && o.response.body.error.Invalid?
              && o.response.body.error.violations != {}
    ensures o.response.status == Created ==>
              && o.response.body.UserBody?
              && var id := o.response.body.user.id;
              && o.db.users == db.users[id := User(input.fullName.value, input.email.value,
                                                   svc.hash(input.password.value), input.roleId.value)]
              && (IdsFresh(db) ==> id !in db.users && |o.db.users| == |db.users| + 1)
              && o.response.body.user == ViewUser(o.db, id)
              && o.response.body.user.role.Some?
    ensures o.db.roles == db.roles && o.db.tokens == db.tokens
    ensures Consistent(db) ==> Consistent(o.db)
    ensures RolesResolved(db) ==> RolesResolved(o.db)
  {
    CreateUserRules(db, input, svc.isEmail);
    var violations := CreateUserViolations(db, input, svc.isEmail);
    if violations != {} then Outcome(Failure(Unprocessable, Invalid(violations)), db)
    else
      var id := db.nextUserId;
      var db' := AddUser(db, User(input.fullName.value, input.email.value,
                                  svc.hash(input.password.value), input.roleId.value));
      Outcome(Response(Created, UserBody(ViewUser(db', id))), db')
  }

  /** `show` */
  function Show(db: Db, id: int): (r: Response)
    ensures id !in db.users <==> r == Failure(NotFound, Missing)
    ensures id in db.users ==> r == Response(Ok, UserBody(ViewUser(db, id)))
    ensures id in db.users ==> r.body.user.fullName == db.users[id].fullName
                               && r.body.user.email == db.users[id].email
                               && r.body.user.roleId == db.users[id].roleId
                               && r.body.user.role == ViewRole(db.roles, db.users[id].roleId)
  {
    if id !in db.users then Failure(NotFound, Missing) else Response(Ok, UserBody(ViewUser(db, id)))
  }

  /** The stored hash after an update: re-hashed when the request carries
      a password, untouched otherwise. */
  function UpdatedHash(current: string, password: Option<string>, svc: Services): (h: string)
    ensures password.None? ==> h == current
    ensures password.Some? ==> h == svc.hash(password.value)
    ensures Sound(svc) && password.Some? ==> svc.check(password.value, h)
  {
    match password
    case None => current
    case Some(p) => svc.hash(p)
  }

  /** `update`: the user's own e-mail does not count as taken, and the
      password is optional; a `password` key sent as `null` is present and
      so breaks `required`. */
  function Update(db: Db, id: int, input: Input, svc: Services): (o: Outcome)
    ensures id !in db.users ==> o == Outcome(Failure(NotFound, Missing), db)
    ensures id in db.users ==> (o.response.status == Ok <==> UpdateAcceptable(db, id, input, svc.isEmail))
    ensures o.response.status != Ok ==> o.db == db
    ensures id in db.users && o.response.status != Ok ==>
              o.response.status == Unprocessable && o.response.body.ErrorBody?
              && o.response.body.error.Invalid? && o.response.body.error.violations != {}
    ensures id in db.users && PasswordSent(input) && input.password.None? ==>
              o.response.status == Unprocessable
              && PasswordRequired in o.response.body.error.violations
    ensures o.response.status == Ok ==>
              && id in db.users
              && (PasswordSent(input) <==> input.password.Some?)
              && o.db == db.(users := db.users[id := User(input.fullName.value, input.email.value,
                                                          UpdatedHash(db.users[id].passwordHash, input.password, svc),
                                                          input.roleId.value)])
              && o.response.body == UserBody(ViewUser(o.db, id))
              && o.response.body.user.role.Some?
    ensures Consistent(db) ==> Consistent(o.db)
    ensures RolesResolved(db) ==> RolesResolved(o.db)
  {
    if id !in db.users then Outcome(Failure(NotFound, Missing), db)
    else
      UpdateUserRules(db, id, input, svc.isEmail);
      var violations := UpdateUserViolations(db, id, input, svc.isEmail);
      if violations != {} then Outcome(Failure(Unprocessable, Invalid(violations)), db)
      else
        var user := User(input.fullName.value, input.email.value,
                         UpdatedHash(db.users[id].passwordHash, input.password, svc), input.roleId.value);
        var db' := db.(users := db.users[id := user]);
        Outcome(Response(Ok, UserBody(ViewUser(db', id))), db')
  }

  /** `destroy`: the user's tokens stay stored but no longer authenticate
      anyone. */
  function Destroy(db: Db, id: int): (o: Outcome)
    ensures id !in db.users ==> o == Outcome(Failure(NotFound, Missing), db)
    ensures id in db.users ==> o.response == Response(NoContent, Empty)
    ensures id in db.users ==> o.db.users.Keys == db.users.Keys - {id}
    ensures forall k :: k in o.db.users ==> k in db.users && o.db.users[k] == db.users[k]
    ensures o.db.roles == db.roles && o.db.tokens == db.tokens
    ensures Consistent(db) ==> Consistent(o.db)
    ensures RolesResolved(db) ==> RolesResolved(o.db)
  {
    if id !in db.users then Outcome(Failure(NotFound, Missing), db)
    else Outcome(Response(NoContent, Empty), db.(users := db.users - {id}))
  }

  /** A stored user reads back as the 201 reported it. */
  lemma StoreThenShow(db: Db, input: Input, svc: Services)
    requires Store(db, input, svc).response.status == Created
    ensures var o := Store(db, input, svc);
            var v := o.response.body.user;
            && Show(o.db, v.id) == Response(Ok, UserBody(v))
            && v.fullName == input.fullName.value && v.email == input.email.value
            && v.roleId == input.roleId.value
  {
  }

  /** After an update, the user reads back as the 200 reported it, and
      every other user reads back as before. */
  lemma UpdateThenShow(db: Db, id: int, input: Input, svc: Services, other: int)
    requires Update(db, id, input, svc).response.status == Ok
    requires other != id
    ensures var o := Update(db, id, input, svc);
            && Show(o.db, id) == o.response
            && o.response.body.user.email == input.email.value
            && o.response.body.user.fullName == input.fullName.value
            && o.response.body.user.roleId == input.roleId.value
            && Show(o.db, other) == Show(db, other)
  {
  }

  /** A deleted user is gone for `show`; every other user is untouched. */
  lemma DestroyThenShow(db: Db, id: int, other: int)
    requires other != id
    ensures var o := Destroy(db, id);
            && Show(o.db, id) == Failure(NotFound, Missing)
            && Show(o.db, other) == Show(db, other)
  {
  }

  /** Updating a user without changing the e-mail is never refused as an
      e-mail clash. */
  lemma UpdateKeepsOwnEmail(db: Db, id: int, input: Input, svc: Services)
    requires Consistent(db) && id in db.users
    requires input.email == Some(db.users[id].email)
    ensures EmailTaken !in UpdateUserViolations(db, id, input, svc.isEmail)
  {
  }
}

=== FILE: validation.dfy ===
/** The request validation the controllers perform. A rule set yields the
    set of rules the input breaks; the request passes exactly when that set
    is empty. As in Laravel's validator, an absent or blank value breaks
    only `required`. The other rules of a present value are all checked
    (none of the rule sets uses `bail`), except that `unique` and `exists`
    are skipped once an earlier rule on the same field has failed. */
module Validation {
  import opened Wrappers
  import opened Accounts

  /** The request body fields the API reads; `None` is an absent key or a
      `null` value, which every rule treats alike. The one exception is
      `password`, whose key `update` tests for: `passwordNull` records a
      `"password": null` in the body (it means nothing when `password`
      carries a string). */
  datatype Input = Input(
    fullName: Option<string>,
    email: Option<string>,
    password: Option<string>,
    passwordNull: bool,
    passwordConfirmation: Option<string>,
    roleId: Option<int>,
    name: Option<string>,
    description: Option<string>)

  datatype Violation =
    | FullNameRequired | FullNameTooLong
    | EmailRequired | EmailInvalid | EmailTooLong | EmailTaken
    | PasswordRequired | PasswordTooShort | PasswordUnconfirmed
    | RoleRequired | RoleUnknown
    | NameRequired | NameTaken
    | DescriptionRequired

  /** `max:255` */
  const MaxLength := 255
  /** `min:8` and `Password::min(8)` */
  const MinPasswordLength := 8

  /** The characters PHP's `trim` removes. */
  const Whitespace: string := " \t\n\r\0\U{B}"

  /** A string that trims to nothing, which `required` rejects. */
  predicate Blank(s: string) {
    forall i :: 0 <= i < |s| ==> s[i] in Whitespace
  }

  /** The value passes `required`. */
  predicate Filled(v: Option<string>) {
    v.Some? && !Blank(v.value)
  }

  /** Some row other than `except` already uses the e-mail (`unique:users`,
      or `unique:users,email,<id>` when `except` is given). */
  predicate EmailUsed(users: map<int, User>, email: string, except: Option<int>) {
    exists k :: k in users && users[k].email == email && except != Some(k)
  }

  /** Some role other than `except` already uses the name. */
  predicate NameUsed(roles: map<int, Role>, name: string, except: Option<int>) {
    exists k :: k in roles && roles[k].name == name && except != Some(k)
  }

  /** `'full_name' => 'required|string|max:255'` */
  function FullNameRule(v: Option<string>): set<Violation> {
    if !Filled(v) then {FullNameRequired}
    else if |v.value| > MaxLength then {FullNameTooLong}
    else {}
  }

  /** `'email' => 'required|string|email|max:255|unique:users…'`; the
      `unique` query runs only when the format and length rules passed. */
  function EmailRule(users: map<int, User>, v: Option<string>, isEmail: string -> bool, except: Option<int>): (r: set<Violation>)
    ensures r == {} <==> Filled(v) && isEmail(v.value) && |v.value| <= MaxLength && !EmailUsed(users, v.value, except)
    ensures EmailTaken in r <==> Filled(v) && isEmail(v.value) && |v.value| <= MaxLength && EmailUsed(users, v.value, except)
    ensures Filled(v) ==> (EmailInvalid in r <==> !isEmail(v.value)) && (EmailTooLong in r <==> |v.value| > MaxLength)
  {
    if !Filled(v) then {EmailRequired}
    else
      var format := (if isEmail(v.value) then {} else {EmailInvalid})
                    + (if |v.value| > MaxLength then {EmailTooLong} else {});
      if format != {} then format
      else if EmailUsed(users, v.value, except) then {EmailTaken}
      else {}
  }

  /** `'password' => 'required|string|min:8|confirmed'`; `confirmed` wants a
      `password_confirmation` field identical to the password. */
  function PasswordRule(password: Option<string>, confirmation: Option<string>): set<Violation> {
    if !Filled(password) then {PasswordRequired}
    else
      (if |password.value| < MinPasswordLength then {PasswordTooShort} else {})
      + (if confirmation != password then {PasswordUnconfirmed} else {})
  }

  /** `'role_id' => 'required|exists:roles,id'` */
  function RoleRule(roles: map<int, Role>, v: Option<int>): set<Violation> {
    if v.None? then {RoleRequired}
    else if v.value in roles then {}
    else {RoleUnknown}
  }

  /** The rules of `register` and of creating a user. */
  function CreateUserViolations(db: Db, input: Input, isEmail: string -> bool): set<Violation> {
    FullNameRule(input.fullName)
    + EmailRule(db.users, input.email, isEmail, None)
    + PasswordRule(input.password, input.passwordConfirmation)
    + RoleRule(db.roles, input.roleId)
  }

  /** `$request->has('password')`: the body has the key, even as `null`. */
  predicate PasswordSent(input: Input) {
    input.password.Some? || input.passwordNull
  }

  /** The rules of updating user `id`: its own e-mail does not count as
      taken, and the password rules apply only when the request carries a
      `password` key. */
  function UpdateUserViolations(db: Db, id: int, input: Input, isEmail: string -> bool): set<Violation> {
    FullNameRule(input.fullName)
    + EmailRule(db.users, input.email, isEmail, Some(id))
    + (if PasswordSent(input) then PasswordRule(input.password, input.passwordConfirmation) else {})
    + RoleRule(db.roles, input.roleId)
  }

  /** The rules of `login`: `'email' => 'required|email'`, `'password' => 'required'`. */
  function LoginViolations(input: Input, isEmail: string -> bool): set<Violation> {
    (if !Filled(input.email) then {EmailRequired}
     else if isEmail(input.email.value) then {}
     else {EmailInvalid})
    + (if Filled(input.password) then {} else {PasswordRequired})
  }

  /** The rules of creating (`except` = None) or updating a role:
      `'name' => 'required|unique:roles,name…'`, `'description' => 'required'`. */
  function RoleViolations(roles: map<int, Role>, input: Input, except: Option<int>): set<Violation> {
    (if !Filled(input.name) then {NameRequired}
     else if NameUsed(roles, input.name.value, except) then {NameTaken}
     else {})
    + (if Filled(input.description) then {} else {DescriptionRequired})
  }

  /** When a new account may be created, stated field by field. */
  ghost predicate NewAccountAcceptable(db: Db, input: Input, isEmail: string -> bool) {
    && input.fullName.Some? && !Blank(input.fullName.value) && |input.fullName.value| <= 255
    && input.email.Some? && !Blank(input.email.value) && isEmail(input.email.value)
    && |input.email.value| <= 255
    && (forall k :: k in db.users ==> db.users[k].email != input.email.value)
    && input.password.Some? && !Blank(input.password.value) && |input.password.value| >= 8
    && input.passwordConfirmation == input.password
    && input.roleId.Some? && input.roleId.value in db.roles
  }

  /** When user `id` may be changed, stated field by field. */
  ghost predicate UpdateAcceptable(db: Db, id: int, input: Input, isEmail: string -> bool) {
    && input.fullName.Some? && !Blank(input.fullName.value) && |input.fullName.value| <= 255
    && input.email.Some? && !Blank(input.email.value) && isEmail(input.email.value)
    && |input.email.value| <= 255
    && (forall k :: k in db.users && k != id ==> db.users[k].email != input.email.value)
    && (PasswordSent(input) ==>
          input.password.Some? && !Blank(input.password.value) && |input.password.value| >= 8
          && input.passwordConfirmation == input.password)
    && input.roleId.Some? && input.roleId.value in db.roles
  }

  /** When a role may be stored under `except` (or created, for None). */
  ghost predicate RoleAcceptable(roles: map<int, Role>, input: Input, except: Option<int>) {
    && input.name.Some? && !Blank(input.name.value)
    && (forall k :: k in roles && Some(k) != except ==> roles[k].name != input.name.value)
    && input.description.Some? && !Blank(input.description.value)
  }

  lemma CreateUserRules(db: Db, input: Input, isEmail: string -> bool)
    ensures CreateUserViolations(db, input, isEmail) == {} <==> NewAccountAcceptable(db, input, isEmail)
  {
    if CreateUserViolations(db, input, isEmail) == {} {
      assert FullNameRule(input.fullName) == {};
      assert EmailRule(db.users, input.email, isEmail, None) == {};
      assert PasswordRule(input.password, input.passwordConfirmation) == {};
      assert RoleRule(db.roles, input.roleId) == {};
    }
  }

  lemma UpdateUserRules(db: Db, id: int, input: Input, isEmail: string -> bool)
    ensures UpdateUserViolations(db, id, input, isEmail) == {} <==> UpdateAcceptable(db, id, input, isEmail)
  {
    if UpdateUserViolations(db, id, input, isEmail) == {} {
      assert FullNameRule(input.fullName) == {};
      assert EmailRule(db.users, input.email, isEmail, Some(id)) == {};
      assert PasswordSent(input) ==> PasswordRule(input.password, input.passwordConfirmation) == {};
      assert RoleRule(db.roles, input.roleId) == {};
    }
  }

  /** When a login request is well-formed, stated field by field. */
  ghost predicate LoginAcceptable(input: Input, isEmail: string -> bool) {
    && input.email.Some? && !Blank(input.email.value) && isEmail(input.email.value)
    && input.password.Some? && !Blank(input.password.value)
  }

  lemma LoginRules(input: Input, isEmail: string -> bool)
    ensures LoginViolations(input, isEmail) == {} <==> LoginAcceptable(input, isEmail)
    ensures !Filled(input.email) ==> EmailRequired in LoginViolations(input, isEmail)
    ensures !Filled(input.password) ==> PasswordRequired in LoginViolations(input, isEmail)
  {
  }

  lemma RoleRules(roles: map<int, Role>, input: Input, except: Option<int>)
    ensures RoleViolations(roles, input, except) == {} <==> RoleAcceptable(roles, input, except)
  {
  }
}

=== FILE: wrappers.dfy ===
/** Optional values: the model's stand-in for PHP's `null` and JavaScript's
    `null`/`undefined`. */
module Wrappers {

  datatype Option<+T> = None | Some(value: T) {

    /** Returns the wrapped value, or `default` when there is none. */
    function GetOr(default: T): T {
      match this
      case Some(v) => v
      case None => default
    }
  }
}
